=== FILE: README.md ===
# weatherAI — a Dafny model of its reply handling and control logic

weatherAI is a small React application. It asks a hosted generative model,
with a web-search tool, for the current, hourly and weekly weather of a
Korean location, then renders the JSON the model writes back. Around that
remote call sit a handful of exact rules, and this project models them as
pure Dafny functions over immutable datatypes:

- **Reply preparation** (`GeminiService`). The reply text, or `"{}"` when it
  is missing or empty, loses every ```` ```json ```` and ```` ``` ```` and is
  trimmed of JavaScript whitespace. It then goes to `JSON.parse`. When that
  throws, the service raises the one error "Invalid weather data format
  received". Otherwise the grounding chunks that carry a `web` entry become
  citation sources, in order. The sources are then deduplicated by uri with
  the `filter`/`findIndex` idiom, which keeps the first occurrence.
- **The application shell** (`App`). An ordered, first-match-wins substring
  classifier turns a thrown error into one of eight Korean messages.
  `handleSearch` is a state machine over `{weatherData, loading, error,
  initialized}`. One rule chooses the main panel: spinner, snapshot display,
  placeholder, or nothing.
- **The search bar** (`SearchBar`). This covers when city suggestions are
  fetched and shown, the submit guard on the trimmed query, the suggestion
  click, and the current-location flow. The state holds the four hooks plus
  whether the debounce timer for the current query is still armed and how
  many suggestion fetches are unresolved. The timer firing, a fetch
  resolving, the outside click and the geolocation callbacks are separate
  events. A timer is armed only when `query` changes, because the effect
  depends on `query` alone. Fetched names are shown whenever they arrive,
  even if the query has changed since. The length guard counts UTF-16
  code units, as JavaScript's `length` does.
- **The condition icon** (`WeatherIcon`). A free-form condition string is
  looked up case-insensitively against the six-member `WeatherCondition`
  enumeration, falling back to `Sunny`, and mapped to a glyph and colour.
- **The data model** (`Types`). The enumerations and snapshot records.
  `Strings` holds the JavaScript string built-ins the rules use:
  `includes`, `trim`, a global `replace` by the empty string, and ASCII
  `toLowerCase`. `Wrappers` holds `Option` and `Result`.

The remote model call, `JSON.parse` and the browser are not modelled.
- A settled remote call is an input: `Result<GenerateResponse, Thrown>`.
- The parser is a function parameter, `string -> Option<WeatherData>`.

### Parse failures are shown as the generic message

The first classifier rule (App.tsx:33) tests for "JSON", the word that
`JSON.parse`'s own `SyntaxError` messages carry. The service, however,
catches that error and throws "Invalid weather data format received"
instead (services/geminiService.ts:80-85). That message contains neither
"JSON" nor "No data returned", so the not-found rule never fires for a
parse failure. The failure is shown as the generic "try again later"
message:
- `App.FormatErrorIsUnclassified` proves that the message matches no rule;
- `App.UnparsableReplyShowsGenericMessage` proves that an unparsable reply
  ends with the generic message and not the not-found one.

## Model

| member | source | states |
|---|---|---|
| Types.ConditionFromValue | types.ts:1-8 | the member whose string value is exactly the input; none only when no member has that value |
| Types.ConditionValueRoundTrip | types.ts:1-8 | every member's value reads back as that member, so the six values are distinct names |
| Types.AllConditionsExact | types.ts:1-8 | `Object.values(WeatherCondition)` has exactly six entries, every member once |
| Types.ViewModeFromValue | types.ts:44-47 | the view mode whose value is the input; none for anything but "HOURLY" and "WEEKLY" |
| Types.ViewModeRoundTrip | types.ts:44-47 | the two modes' values are distinct and read back as themselves |
| WeatherIcon.LowerValuesDistinct | types.ts:1-8 | no two members' values coincide after lower-casing, so the case-insensitive lookup has at most one match |
| WeatherIcon.FindIgnoringCase | components/WeatherIcon.tsx:13-14 | `find` returns a listed member equal to the input up to case, or none when no listed member is |
| WeatherIcon.Normalize | components/WeatherIcon.tsx:13-15 | the result is the member equal to the input up to case whenever there is one, and `Sunny` when there is none |
| WeatherIcon.NormalizeCanonical | components/WeatherIcon.tsx:13-15 | each member's own value normalises to that member |
| WeatherIcon.NormalizeIgnoresCase | components/WeatherIcon.tsx:14 | strings equal up to letter case normalise to the same member |
| WeatherIcon.NormalizeIdempotent | components/WeatherIcon.tsx:13-15 | normalising an already normalised value changes nothing |
| WeatherIcon.DefaultBranchUnreachable | components/WeatherIcon.tsx:17-31 | after normalisation the switch value is always one of the six case labels |
| WeatherIcon.DefaultRendersAsSunny | components/WeatherIcon.tsx:30-31 | the default branch draws exactly the Sunny icon |
| WeatherIcon.IconsDistinct | components/WeatherIcon.tsx:17-29 | distinct members get distinct icons |
| WeatherIcon.IconIgnoresCase | components/WeatherIcon.tsx:13-31 | a case variant of a member's value gets that member's icon; an unknown string gets the sun |
| Strings.Trim | services/geminiService.ts:77 | the result is a slice of the input with only JavaScript whitespace cut on each side and a non-whitespace code point at each end |
| Strings.TrimIdempotent | services/geminiService.ts:77 | trimming twice is trimming once |
| Strings.TrimEmptyIffBlank | components/SearchBar.tsx:47 | a string trims to empty exactly when every code point is whitespace |
| Strings.Contains | App.tsx:33-46 | `includes`, scanning from the left; its meaning is fixed by `ContainsIffOccurs` |
| Strings.ContainsIffOccurs | App.tsx:33-46 | `includes` holds exactly when the pattern occurs at some index, in both directions |
| Strings.RemoveAll | services/geminiService.ts:77 | a global `replace` by the empty string yields no more characters than the input, all taken from it |
| Strings.ToLower | components/WeatherIcon.tsx:14 | lower-casing keeps the length and folds each code point on its own, A-Z to a-z and everything else unchanged |
| Strings.ToLowerIdempotent | components/WeatherIcon.tsx:14 | lower-casing twice is lower-casing once |
| GeminiService.NoFenceAfterRemove | services/geminiService.ts:77 | a global removal of ```` ``` ```` never leaves a run of three backticks |
| GeminiService.StripFences | services/geminiService.ts:77 | the stripped text contains no ```` ``` ````, starts and ends with non-whitespace, and is no longer than the input |
| GeminiService.StripFencesIdempotent | services/geminiService.ts:77 | stripping twice gives the same text as stripping once |
| GeminiService.StripFencesPlain | services/geminiService.ts:77 | text without backticks is only trimmed |
| GeminiService.StripFencesUnwraps | services/geminiService.ts:76-77 | a backtick-free body wrapped in a ```` ```json ```` fence strips to the trimmed body |
| GeminiService.FencedAndUnfencedAgree | services/geminiService.ts:75-77 | a non-empty backtick-free body reaches the parser identically fenced or unfenced |
| GeminiService.EmptyTextBecomesEmptyObject | services/geminiService.ts:75 | an absent or empty reply text reaches the parser as `{}` |
| GeminiService.ExtractSources | services/geminiService.ts:91-98 | every chunk's web entry is among the sources, every source is some chunk's web entry, and there are no more sources than chunks |
| GeminiService.ExtractSourcesAppend | services/geminiService.ts:91-98 | extraction works chunk by chunk in order: extracting a concatenation concatenates the extractions |
| GeminiService.ExtractSourcesAllWeb | services/geminiService.ts:91-98 | when every chunk has a web entry, the sources are those entries at the same positions |
| GeminiService.MissingMetadataYieldsNoSources | services/geminiService.ts:88 | no candidates, no first candidate, no metadata or no chunk list yields no sources |
| GeminiService.FindIndex | services/geminiService.ts:101 | the first position holding the uri, or -1 exactly when no position does |
| GeminiService.UniqueByUri | services/geminiService.ts:101 | the output is no longer than the input, has pairwise-distinct uris, holds only first occurrences, and holds the first occurrence of every input uri |
| GeminiService.UniqueByUriIsSubsequence | services/geminiService.ts:101 | the output is an order-preserving subsequence of the input |
| GeminiService.UniqueByUriOfDistinct | services/geminiService.ts:101 | on input with distinct uris, deduplication is the identity |
| GeminiService.UniqueByUriIdempotent | services/geminiService.ts:101 | deduplicating twice is deduplicating once |
| GeminiService.DedupSources | services/geminiService.ts:101 | the nested `filter`/`findIndex` scan computes exactly the deduplicated list |
| GeminiService.DuplicateUriKeepsFirst | services/geminiService.ts:101 | two citations sharing a uri keep the first one's title |
| GeminiService.EveryCitedUriKept | services/geminiService.ts:88-101 | every uri of a chunk with a web entry survives extraction and deduplication |
| GeminiService.GetWeatherData | services/geminiService.ts:74-106 | a failed call is rethrown unchanged; the call fails exactly when the parser rejects the prepared text, and then with exactly "Invalid weather data format received"; a returned snapshot is the parser's value with only `sources` replaced, by exactly the deduplicated extraction, whose uris are distinct and cover every cited uri |
| GeminiService.EmptyReplyIsNotAFormatError | services/geminiService.ts:75-85 | an absent or empty reply text raises no format error when the parser accepts `{}` |
| GeminiService.FencedReplyParsesAlike | services/geminiService.ts:75-81 | for a non-empty reply text without backticks, wrapping it in a json fence does not change the result (an empty text differs: fenced it strips to "", unfenced it becomes `{}`) |
| GeminiService.SameParserInputSameResult | services/geminiService.ts:74-103 | the result depends on the reply only through the parser input and the grounding chunks |
| App.RulesSpelledOut | App.tsx:33-47 | each rule of the ordered table matches exactly when one of its substrings occurs |
| App.ClassifyMessage | App.tsx:29-47 | the kind of the first rule with a matching substring, and the generic kind exactly when no rule matches |
| App.Classify | App.tsx:29-47 | a thrown value that is not an `Error` is unclassified; an `Error` is unclassified exactly when no rule of the table matches its message, and otherwise gets the kind of the first matching rule |
| App.ErrorMessage | App.tsx:29-50 | the message set as the error: the generic one for a non-`Error` or an unmatched message, otherwise the message of the first matching rule |
| App.EarlierRuleWins | App.tsx:33-47 | when an earlier rule matches, no later rule's kind is chosen |
| App.PriorityExamples | App.tsx:33-44 | "JSON … 500" is location-not-found and "400 401" is bad-request |
| App.UserMessagesDistinct | App.tsx:29-46 | the eight messages are non-empty and pairwise distinct |
| App.FormatErrorIsUnclassified | App.tsx:33-47 | the service's parse-failure message matches no rule, so it is classified as generic |
| App.NoPatternOccurs | App.tsx:33-47 | a message without the rules' leading letters falls through to the generic kind |
| App.HandleSearch | App.tsx:20-53 | loading ends; success stores the snapshot, sets initialised and clears the error; failure keeps the snapshot and initialised flag and shows the classified message |
| App.UnparsableReplyShowsGenericMessage | App.tsx:23-50 | an unparsable reply keeps the shown snapshot and shows the generic message, not the not-found one |
| App.ApplyKeepsConsistent | App.tsx:20-53 | each start or settlement keeps: data held exactly when initialised, no error while loading, any error one of the eight messages |
| App.ReplayKeepsConsistent | App.tsx:20-53 | every interleaving of starts and settlements keeps that invariant |
| App.DataNeverCleared | App.tsx:27-50 | once a snapshot is held, no sequence of searches clears it |
| App.View | App.tsx:90-103 | the spinner exactly while loading; otherwise the held snapshot whenever there is one; the placeholder exactly when nothing is loading or held, the first success has not happened, and no error banner shows |
| App.SpinnerExactlyWhileLoading | App.tsx:90-94 | a started search shows the spinner whatever is held; a settled one never does |
| App.SettledSearchView | App.tsx:84-97 | success shows its snapshot without a banner; failure keeps showing the held snapshot under the error banner |
| App.PastPlaceholderStays | App.tsx:98-102 | once initialised, loading or showing an error, later events never bring the placeholder back |
| App.PlaceholderOnlyBeforeFirstSettlement | App.tsx:98-102 | after any search has settled, the placeholder is never shown again |
| App.FirstSearchSucceeds | App.tsx:14-26 | before the first search the placeholder shows; a successful first search shows its snapshot with no error |
| SearchBar.WantsSuggestions | components/SearchBar.tsx:30 | two or more code points without "latitude" always want suggestions; an empty query or one containing "latitude" never does; for BMP-only text the guard is exactly "longer than one code point, no latitude" |
| SearchBar.SetQuery | components/SearchBar.tsx:27-43 | the query becomes the new text; the timer is armed exactly when one was already pending or the text differs; the panel, suggestions, locating flag and fetches are untouched |
| SearchBar.FireDebounce | components/SearchBar.tsx:28-41 | the timer is spent and the query and locating flag are kept; a wanted query starts one more fetch and leaves the panel alone; any other query empties and hides the panel without a fetch |
| SearchBar.ReceiveSuggestions | components/SearchBar.tsx:31-33 | one fetch resolves: its names become the suggestions and the panel is shown, whatever the query now is; query, locating flag and timer are kept |
| SearchBar.Submit | components/SearchBar.tsx:45-51 | a search is issued exactly when the query has a non-whitespace code point; it passes the untrimmed query and hides the panel; otherwise nothing changes |
| SearchBar.SelectSuggestion | components/SearchBar.tsx:53-57 | the clicked name becomes the query and the search, the panel is hidden, the timer is re-armed exactly when the query changes, and the suggestions, locating flag and fetches are untouched |
| SearchBar.RequestLocation | components/SearchBar.tsx:59-66 | no search; locating starts exactly when geolocation is supported (or was already on), and nothing else changes |
| SearchBar.LocationFound | components/SearchBar.tsx:68-76 | the search gets the coordinate query, the input shows the locating text, locating stops, the panel is hidden, the timer is re-armed exactly when the query changes, and the suggestions and fetches are untouched |
| SearchBar.LocationFailed | components/SearchBar.tsx:77-81 | no search; locating stops and nothing else changes |
| SearchBar.IssuedSearches | components/SearchBar.tsx:45-88 | every search the bar issues is a non-blank submitted query, a suggestion from the visible panel, or a coordinate query, and the panel is hidden afterwards |
| SearchBar.TraceSearches | components/SearchBar.tsx:45-75 | along any trace, every search is a non-blank query the input actually held (the starting query, a typed text, the locating text, or an offered name), a name the panel held at the start or some fetch delivered, or a coordinate query |
| SearchBar.DisabledControlsInert | components/SearchBar.tsx:93-106 | while loading or locating, typing, submitting and the location button change nothing |
| SearchBar.LocatingStep | components/SearchBar.tsx:59-81 | one event turns locating on exactly by a supported click the component accepts, and off exactly by a position callback |
| SearchBar.LocatingSpan | components/SearchBar.tsx:59-81 | along any trace, `isLocating` holds exactly from a supported location click until the next position callback, so the controls are disabled over that span |
| SearchBar.TimerArmedOnlyByQueryChange | components/SearchBar.tsx:27-43 | with no timer pending, an event arms one exactly when it changes the query |
| SearchBar.FetchOnlyForWantedQuery | components/SearchBar.tsx:27-41 | a suggestion fetch starts exactly when an armed timer fires for a query longer than one code unit without "latitude" |
| SearchBar.PanelOpensOnlyOnResults | components/SearchBar.tsx:17-37 | a hidden panel is shown again exactly when a started fetch resolves |
| SearchBar.StaleResultsShown | components/SearchBar.tsx:27-43 | the names fetched for "서울" still open the panel after the query has been shortened to "서", which wants none |
| SearchBar.AstralQueryWantsSuggestions | components/SearchBar.tsx:30 | a single code point above U+FFFF is two code units long, so it passes the length guard |
| SearchBar.CoordinateQueryWantsNoSuggestions | components/SearchBar.tsx:29-30 | a coordinate query would never trigger a suggestion fetch, though the component never stores one in the input |
| SearchBar.LocationFoundThenSuggests | components/SearchBar.tsx:68-75 | when the input held other text, the locating text put there re-arms the timer and passes the suggestion guard, so names for it are fetched and shown |
| SearchBar.SelectedSuggestionReopens | components/SearchBar.tsx:53-57 | clicking a suggestion that differs from the query hides the panel and re-arms the timer, whose fetch shows the panel again |
| SearchBar.ReselectingQueryStaysClosed | components/SearchBar.tsx:43-57 | clicking a suggestion equal to the query arms no timer, so with no fetch in flight the panel stays hidden |
| Strings.Utf16Length | components/SearchBar.tsx:30 | `length` is at least the number of code points and at most twice it |
| Strings.Utf16LengthOfBmp | components/SearchBar.tsx:30 | `length` equals the number of code points exactly when none lies above U+FFFF |

## Left out

- The remote generation calls, the prompt text and the search-tool configuration are not modelled. `getCitySuggestions` is left out too, since it is a network call. It never rejects, because it catches every error and returns `[]`. A settled call is an input, and suggestion results are the payload of the event that resolves a fetch. Unresolved fetches are a count, so they may resolve in any order with any names.
- The mount effect's search for "서울" (App.tsx:14-18) is an ordinary start and settlement of the shell; the location string only reaches the remote call, which is an input.
- `includes`, `trim` and `replace` work on code points, not UTF-16 code units. They agree with JavaScript because every pattern and every whitespace character they look for is a single code unit.
- `JSON.parse` and the unchecked cast to `WeatherData` are a parser parameter returning `Some` or `None`. A reply that parses to a non-object would make the `sources` assignment throw; that case is not modelled.
- The debounce timer, the document `mousedown` listener, `navigator.geolocation`, `alert` and `console.error` are browser input and output. Each is a discrete event or is dropped.
- Latitude and longitude are opaque strings; JavaScript number formatting is not modelled.
- Temperatures, humidity and wind speed are reals; no arithmetic is done on them.
- The SDK's optional `title` and `uri` of a web entry are plain strings.
- Strings.ToLower: folds ASCII letters only, not the full Unicode `toLowerCase`. For the six Latin condition names this does not change which strings match, because no other code point lower-cases to a plain ASCII letter of those names.
- Races between overlapping searches are not modelled as timing. The shell's event replay does allow any interleaving of starts and settlements, and the invariants hold for all of them.
- The search bar's event dispatch treats form submission as gated by the input's `disabled` flag, because a disabled input cannot receive the Enter key. It accepts a suggestion click only while the panel is visible, because the buttons exist only then.
- components/WeatherDisplay.tsx is presentation only (charts, date formatting, rounding) and is not part of this model.

=== FILE: app.dfy ===
/** The application shell (App.tsx): the search state machine over
    `{weatherData, loading, error, initialized}`, the ordered error
    classifier, and the choice of what the main panel shows. The awaited
    service call is an input. */
module App {
  import opened Wrappers
  import opened Strings
  import opened Types
  import GeminiService

  type Thrown = GeminiService.Thrown

  // ---------------------------------------------------------------------
  // Error classification

  /** The eight user-facing outcomes of a failed search. */
  datatype ErrorKind =
    | DataNotFound | NetworkFailure | RateLimited | BadRequest
    | AuthFailure | ServerError | SafetyBlocked | Unclassified

  /** The Korean message shown for each kind. */
  function UserMessage(k: ErrorKind): string {
    match k
    case DataNotFound => "해당 지역의 날씨 정보를 찾을 수 없습니다. 정확한 지역명을 입력해주세요."
    case NetworkFailure => "네트워크 연결 상태를 확인해주세요."
    case RateLimited => "요청 횟수가 너무 많습니다. 잠시 후 다시 시도해주세요."
    case BadRequest => "잘못된 요청입니다. 입력값을 확인해주세요."
    case AuthFailure => "API 인증 오류가 발생했습니다. 관리자에게 문의하세요."
    case ServerError => "서버에 일시적인 문제가 발생했습니다. 나중에 다시 시도해주세요."
    case SafetyBlocked => "안전 정책에 의해 요청이 차단되었습니다."
    case Unclassified => "날씨 정보를 가져오는데 실패했습니다. 잠시 후 다시 시도해주세요."
  }

  /** A classification rule: any of the substrings selects the kind. */
  datatype Rule = Rule(patterns: seq<string>, kind: ErrorKind)

  /** The rules in the order the shell tests them. */
  const Rules: seq<Rule> := [
    Rule(["No data returned", "JSON"], DataNotFound),
    Rule(["fetch failed", "Network"], NetworkFailure),
    Rule(["429"], RateLimited),
    Rule(["400"], BadRequest),
    Rule(["401", "403"], AuthFailure),
    Rule(["500", "503"], ServerError),
    Rule(["Safety"], SafetyBlocked)
  ]

  predicate Matches(rule: Rule, msg: string) {
    exists k :: 0 <= k < |rule.patterns| && Contains(msg, rule.patterns[k])
  }

  /** Each rule matches exactly when one of its substrings occurs. */
  lemma RulesSpelledOut(msg: string)
    ensures Matches(Rules[0], msg) <==> Contains(msg, "No data returned") || Contains(msg, "JSON")
    ensures Matches(Rules[1], msg) <==> Contains(msg, "fetch failed") || Contains(msg, "Network")
    ensures Matches(Rules[2], msg) <==> Contains(msg, "429")
    ensures Matches(Rules[3], msg) <==> Contains(msg, "400")
    ensures Matches(Rules[4], msg) <==> Contains(msg, "401") || Contains(msg, "403")
    ensures Matches(Rules[5], msg) <==> Contains(msg, "500") || Contains(msg, "503")
    ensures Matches(Rules[6], msg) <==> Contains(msg, "Safety")
  {
    forall i | 0 <= i < |Rules|
      ensures Matches(Rules[i], msg) <==> exists k :: 0 <= k < |Rules[i].patterns| && Contains(msg, Rules[i].patterns[k])
    {
    }
    assert Rules[0].patterns[0] == "No data returned" && Rules[0].patterns[1] == "JSON";
    assert Rules[1].patterns[0] == "fetch failed" && Rules[1].patterns[1] == "Network";
    assert |Rules[2].patterns| == 1 && Rules[2].patterns[0] == "429";
    assert |Rules[3].patterns| == 1 && Rules[3].patterns[0] == "400";
    assert |Rules[6].patterns| == 1 && Rules[6].patterns[0] == "Safety";
    assert Rules[4].patterns[0] == "401" && Rules[4].patterns[1] == "403";
    assert Rules[5].patterns[0] == "500" && Rules[5].patterns[1] == "503";
  }

  /** The `if … else if …` chain over `err.message`: the kind of the first
      rule with a matching substring, and `Unclassified` when none has. */
  function ClassifyMessage(msg: string): (kind: ErrorKind)
    ensures kind == Unclassified <==> forall i :: 0 <= i < |Rules| ==> !Matches(Rules[i], msg)
    ensures kind != Unclassified ==>
      exists i :: && 0 <= i < |Rules| && Rules[i].kind == kind && Matches(Rules[i], msg)
                  && forall j :: 0 <= j < i ==> !Matches(Rules[j], msg)
  {
    RulesSpelledOut(msg);
    if Contains(msg, "No data returned") || Contains(msg, "JSON") then DataNotFound
    else if Contains(msg, "fetch failed") || Contains(msg, "Network") then NetworkFailure
    else if Contains(msg, "429") then RateLimited
    else if Contains(msg, "400") then BadRequest
    else if Contains(msg, "401") || Contains(msg, "403") then AuthFailure
    else if Contains(msg, "500") || Contains(msg, "503") then ServerError
    else if Contains(msg, "Safety") then SafetyBlocked
    else Unclassified
  }

  /** Rule `i` is the first in the table that matches `msg`. */
  predicate FirstMatch(msg: string, i: int) {
    0 <= i < |Rules| && Matches(Rules[i], msg) && forall j :: 0 <= j < i ==> !Matches(Rules[j], msg)
  }

  /** Distinct rules select distinct kinds. */
  lemma RuleKindsDistinct()
    ensures forall p, q :: 0 <= p < q < |Rules| ==> Rules[p].kind != Rules[q].kind
  {
  }

  /** The `catch` block: only an `Error` is classified, by the first rule of
      the table its message matches; any other thrown value, and an error
      no rule matches, is unclassified. */
  function Classify(err: Thrown): (kind: ErrorKind)
    ensures err.NonError? ==> kind == Unclassified
    ensures err.Error? ==> (kind == Unclassified <==> forall i :: 0 <= i < |Rules| ==> !Matches(Rules[i], err.message))
    ensures err.Error? ==> forall i :: FirstMatch(err.message, i) ==> kind == Rules[i].kind
  {
    match err
    case NonError => Unclassified
    case Error(m) =>
      RuleKindsDistinct();
      ClassifyMessage(m)
  }

  /** The message `setError` receives: the generic one for a non-`Error`
      or an unmatched message, else the message of the first matching rule. */
  function ErrorMessage(err: Thrown): (m: string)
    ensures err.NonError? ==> m == UserMessage(Unclassified)
    ensures err.Error? && (forall i :: 0 <= i < |Rules| ==> !Matches(Rules[i], err.message)) ==> m == UserMessage(Unclassified)
    ensures err.Error? ==> forall i :: FirstMatch(err.message, i) ==> m == UserMessage(Rules[i].kind)
  {
    UserMessage(Classify(err))
  }

  /** When an earlier rule matches, no later rule's kind is chosen. */
  lemma EarlierRuleWins(msg: string, i: int, j: int)
    requires 0 <= i < j < |Rules|
    requires Matches(Rules[i], msg)
    ensures ClassifyMessage(msg) != Rules[j].kind
  {
    assert forall p, q :: 0 <= p < q < |Rules| ==> Rules[p].kind != Rules[q].kind;
  }

  /** Two messages carrying an earlier and a later pattern: "JSON" beats
      "500", and "400" beats "401". */
  lemma PriorityExamples(a: string, b: string)
    requires a == "JSON error 500"
    requires b == "400 401"
    ensures ClassifyMessage(a) == DataNotFound
    ensures ClassifyMessage(b) == BadRequest
  {
    assert "JSON" <= a;
    BadRequestSampleLacksLeads(b);
    NoMatchWithoutLeadingPair(b, "No data returned");
    NoMatchWithoutLeadingPair(b, "JSON");
    NoMatchWithoutLeadingPair(b, "fetch failed");
    NoMatchWithoutLeadingPair(b, "Network");
    NoMatchWithoutLeadingPair(b, "429");
    assert "400" <= b;
  }

  /** No pattern of a rule tested before "400" can start in `m`: there is
      no N ("No data returned", "Network"), no J ("JSON"), no f ("fetch
      failed"), and every 4 is followed by 0 (so no "429"). */
  predicate LacksLeadsBefore400(m: string) {
    forall i :: 0 <= i < |m| ==>
      && m[i] != 'N' && m[i] != 'J' && m[i] != 'f'
      && (m[i] == '4' ==> i + 1 < |m| && m[i + 1] == '0')
  }

  lemma BadRequestSampleLacksLeads(m: string)
    requires m == "400 401"
    ensures LacksLeadsBefore400(m)
  {
  }

  /** The eight messages are pairwise distinct and none is empty. */
  lemma UserMessagesDistinct(j: ErrorKind, k: ErrorKind)
    ensures UserMessage(j) != []
    ensures j != k ==> UserMessage(j) != UserMessage(k)
  {
    MessageInitial(j);
    MessageInitial(k);
  }

  /** The first code point of each message; no two coincide. */
  function Initial(k: ErrorKind): char {
    match k
    case DataNotFound => '해'
    case NetworkFailure => '네'
    case RateLimited => '요'
    case BadRequest => '잘'
    case AuthFailure => 'A'
    case ServerError => '서'
    case SafetyBlocked => '안'
    case Unclassified => '날'
  }

  lemma MessageInitial(k: ErrorKind)
    ensures |UserMessage(k)| > 0 && UserMessage(k)[0] == Initial(k)
  {
    match k
    case DataNotFound =>
    case NetworkFailure =>
    case RateLimited =>
    case BadRequest =>
    case AuthFailure =>
    case ServerError =>
    case SafetyBlocked =>
    case Unclassified =>
  }

  /** The service's own parse-failure message contains none of the
      patterns, "JSON" included, so it is shown as the generic message
      rather than the location-not-found one. */
  lemma FormatErrorIsUnclassified()
    ensures ClassifyMessage(GeminiService.InvalidFormatMessage) == Unclassified
  {
    FormatMessageLetters(GeminiService.InvalidFormatMessage);
    NoPatternOccurs(GeminiService.InvalidFormatMessage);
  }

  /** The letters of the service's format-error message: none of N, J, S,
      4 or 5, and its only f is not followed by e. */
  predicate AvoidsPatternLetters(m: string) {
    forall i :: 0 <= i < |m| ==>
      && m[i] != 'N' && m[i] != 'J' && m[i] != 'S' && m[i] != '4' && m[i] != '5'
      && (m[i] == 'f' ==> i + 1 == |m| || m[i + 1] != 'e')
  }

  /** The message is split after "Invalid weather da" (18 code points).
      Its only f, at index 21 in "format", is followed by o at index 22,
      so "fetch failed" cannot start there; no N, J, S, 4 or 5 occurs, so
      no other rule's pattern can start anywhere. */
  lemma FormatMessageLetters(m: string)
    requires m == GeminiService.InvalidFormatMessage
    ensures AvoidsPatternLetters(m)
  {
    var a, b := m[..18], m[18..];
    assert a == "Invalid weather da" && b == "ta format received";
    FormatMessageHalfLetters(a);
    FormatMessageHalfLetters(b);
    forall i | 0 <= i < |m|
      ensures m[i] != 'N' && m[i] != 'J' && m[i] != 'S' && m[i] != '4' && m[i] != '5'
      ensures m[i] == 'f' ==> i + 1 == |m| || m[i + 1] != 'e'
    {
      if i < 18 {
        assert m[i] == a[i];
      } else {
        assert m[i] == b[i - 18];
      }
      if m[i] == 'f' {
        assert i == 21 && m[22] == b[4];
      }
    }
  }

  /** Each half of the format-error message lacks N, J, S, 4 and 5, and
      only the second holds an f, at index 3. */
  lemma FormatMessageHalfLetters(h: string)
    requires h == "Invalid weather da" || h == "ta format received"
    ensures forall i :: 0 <= i < |h| ==>
      && h[i] != 'N' && h[i] != 'J' && h[i] != 'S' && h[i] != '4' && h[i] != '5'
      && (h[i] == 'f' ==> h == "ta format received" && i == 3)
  {
  }

  lemma NoPatternOccurs(m: string)
    requires AvoidsPatternLetters(m)
    ensures ClassifyMessage(m) == Unclassified
  {
    NoMatchWithoutLeadingPair(m, "No data returned");
    NoMatchWithoutLeadingPair(m, "JSON");
    NoMatchWithoutLeadingPair(m, "fetch failed");
    NoMatchWithoutLeadingPair(m, "Network");
    NoMatchWithoutLeadingPair(m, "429");
    NoMatchWithoutLeadingPair(m, "400");
    NoMatchWithoutLeadingPair(m, "401");
    NoMatchWithoutLeadingPair(m, "403");
    NoMatchWithoutLeadingPair(m, "500");
    NoMatchWithoutLeadingPair(m, "503");
    NoMatchWithoutLeadingPair(m, "Safety");
  }

  // ---------------------------------------------------------------------
  // Search state

  datatype AppState = AppState(
    weatherData: Option<WeatherData>,
    loading: bool,
    error: Option<string>,
    initialized: bool)

  const InitialState := AppState(None, false, None, false)

  /** `setLoading(true); setError(null)` before the await. */
  function BeginSearch(st: AppState): AppState {
    st.(loading := true, error := None)
  }

  /** The `try`/`catch`/`finally` once the service call settles. */
  function SettleSearch(st: AppState, outcome: Result<WeatherData, Thrown>): AppState {
    match outcome
    case Ok(data) => st.(weatherData := Some(data), initialized := true, loading := false)
    case Err(e) => st.(error := Some(ErrorMessage(e)), loading := false)
  }

  /** `handleSearch`, from its start to its settlement. */
  function HandleSearch(st: AppState, outcome: Result<WeatherData, Thrown>): (r: AppState)
    ensures !r.loading
    ensures outcome.Ok? ==> r.weatherData == Some(outcome.value) && r.initialized && r.error.None?
    ensures outcome.Err? ==>
      && r.weatherData == st.weatherData
      && r.initialized == st.initialized
      && r.error == Some(UserMessage(Classify(outcome.error)))
  {
    SettleSearch(BeginSearch(st), outcome)
  }

  /** A search wired to the service: the settled remote call and the
      parser decide the outcome. */
  function Search(st: AppState, call: Result<GeminiService.GenerateResponse, Thrown>,
                  parse: GeminiService.JsonParser): AppState {
    HandleSearch(st, GeminiService.GetWeatherData(call, parse))
  }

  /** A reply the parser rejects leaves the shown data in place and shows
      the generic message, not the location-not-found one. */
  lemma UnparsableReplyShowsGenericMessage(st: AppState, resp: GeminiService.GenerateResponse,
                                           parse: GeminiService.JsonParser)
    requires parse(GeminiService.PrepareJson(resp.text)).None?
    ensures Search(st, Ok(resp), parse).weatherData == st.weatherData
    ensures Search(st, Ok(resp), parse).error == Some(UserMessage(Unclassified))
    ensures Search(st, Ok(resp), parse).error != Some(UserMessage(DataNotFound))
  {
    FormatErrorIsUnclassified();
  }

  /** The events the shell reacts to: a search starts, or one settles.
      Overlapping searches may interleave in any order. */
  datatype AppEvent = SearchStarted | SearchSettled(outcome: Result<WeatherData, Thrown>)

  function Apply(st: AppState, ev: AppEvent): AppState {
    match ev
    case SearchStarted => BeginSearch(st)
    case SearchSettled(outcome) => SettleSearch(st, outcome)
  }

  function Replay(st: AppState, evs: seq<AppEvent>): AppState
    decreases |evs|
  {
    if |evs| == 0 then st else Replay(Apply(st, evs[0]), evs[1..])
  }

  /** What every reachable state satisfies: data is present exactly when a
      search has succeeded, no error is shown while loading, and a shown
      error is one of the eight messages. */
  predicate Consistent(st: AppState) {
    && (st.initialized <==> st.weatherData.Some?)
    && (st.loading ==> st.error.None?)
    && (st.error.Some? ==> exists k: ErrorKind :: st.error.value == UserMessage(k))
  }

  lemma ApplyKeepsConsistent(st: AppState, ev: AppEvent)
    requires Consistent(st)
    ensures Consistent(Apply(st, ev))
  {
    if ev.SearchSettled? && ev.outcome.Err? {
      var k := Classify(ev.outcome.error);
      assert Apply(st, ev).error.value == UserMessage(k);
    }
  }

  lemma {:induction false} ReplayKeepsConsistent(st: AppState, evs: seq<AppEvent>)
    requires Consistent(st)
    ensures Consistent(Replay(st, evs))
    decreases |evs|
  {
    if |evs| > 0 {
      ApplyKeepsConsistent(st, evs[0]);
      ReplayKeepsConsistent(Apply(st, evs[0]), evs[1..]);
    }
  }

  /** Once some snapshot is held, no sequence of events clears it. */
  lemma {:induction false} DataNeverCleared(st: AppState, evs: seq<AppEvent>)
    requires st.weatherData.Some?
    ensures Replay(st, evs).weatherData.Some?
    decreases |evs|
  {
    if |evs| > 0 {
      DataNeverCleared(Apply(st, evs[0]), evs[1..]);
    }
  }

  // ---------------------------------------------------------------------
  // The main panel

  /** What the main panel shows. */
  datatype MainView = Spinner | Display(data: WeatherData) | Placeholder | Nothing

  /** `loading ? spinner : weatherData ? display : !initialized && !error && placeholder`:
      the spinner exactly while loading, otherwise the held snapshot, and
      the placeholder only before any success with no error shown. */
  function View(st: AppState): (v: MainView)
    ensures v == Spinner <==> st.loading
    ensures !st.loading && st.weatherData.Some? ==> v == Display(st.weatherData.value)
    ensures v.Display? ==> st.weatherData == Some(v.data)
    ensures v == Placeholder <==> !st.loading && st.weatherData.None? && !st.initialized && !ShowsErrorBanner(st)
  {
    if st.loading then Spinner
    else if st.weatherData.Some? then Display(st.weatherData.value)
    else if !st.initialized && (st.error.None? || st.error.value == []) then Placeholder
    else Nothing
  }

  /** `{error && …}`: the banner shows a non-empty error. */
  predicate ShowsErrorBanner(st: AppState) {
    st.error.Some? && st.error.value != []
  }

  /** Whatever is held, a started search shows the spinner, and a settled
      one never does. */
  lemma SpinnerExactlyWhileLoading(st: AppState, outcome: Result<WeatherData, Thrown>)
    ensures View(BeginSearch(st)) == Spinner
    ensures View(HandleSearch(st, outcome)) != Spinner
  {
  }

  /** A failed search keeps showing the snapshot already held, under the
      error banner; a successful one shows its own snapshot without one. */
  lemma SettledSearchView(st: AppState, outcome: Result<WeatherData, Thrown>)
    ensures outcome.Ok? ==> View(HandleSearch(st, outcome)) == Display(outcome.value)
                            && !ShowsErrorBanner(HandleSearch(st, outcome))
    ensures outcome.Err? && st.weatherData.Some? ==>
      View(HandleSearch(st, outcome)) == Display(st.weatherData.value)
    ensures outcome.Err? ==> ShowsErrorBanner(HandleSearch(st, outcome))
  {
    if outcome.Err? {
      UserMessagesDistinct(Classify(outcome.error), Classify(outcome.error));
    }
  }

  /** Some search has settled, or is the state's own doing: the panel can
      no longer fall back to the placeholder. */
  predicate PastPlaceholder(st: AppState) {
    st.initialized || st.loading || (st.error.Some? && st.error.value != [])
  }

  lemma {:induction false} PastPlaceholderStays(st: AppState, evs: seq<AppEvent>)
    requires PastPlaceholder(st)
    ensures PastPlaceholder(Replay(st, evs))
    decreases |evs|
  {
    if |evs| > 0 {
      var next := Apply(st, evs[0]);
      if evs[0].SearchSettled? && evs[0].outcome.Err? {
        UserMessagesDistinct(Classify(evs[0].outcome.error), Classify(evs[0].outcome.error));
      }
      PastPlaceholderStays(next, evs[1..]);
    }
  }

  /** The placeholder shows only until the first search settles: after
      one has, no later events bring it back. */
  lemma PlaceholderOnlyBeforeFirstSettlement(evs: seq<AppEvent>, i: nat)
    requires i < |evs| && evs[i].SearchSettled?
    ensures View(Replay(InitialState, evs)) != Placeholder
  {
    var before := Replay(InitialState, evs[..i]);
    var after := Apply(before, evs[i]);
    assert after == SettleSearch(before, evs[i].outcome);
    SettlingPassesPlaceholder(before, evs[i].outcome);
    var rest := evs[i + 1..];
    PastPlaceholderStays(after, rest);
    ReplaySplit(InitialState, evs, i);
    PastPlaceholderHidesIt(Replay(after, rest));
  }

  lemma PastPlaceholderHidesIt(st: AppState)
    requires PastPlaceholder(st)
    ensures View(st) != Placeholder
  {
  }

  /** Replaying a trace is replaying up to one event, applying it, and
      replaying the rest. */
  lemma ReplaySplit(st: AppState, evs: seq<AppEvent>, i: nat)
    requires i < |evs|
    ensures Replay(st, evs) == Replay(Apply(Replay(st, evs[..i]), evs[i]), evs[i + 1..])
  {
    assert evs[..i + 1] + evs[i + 1..] == evs;
    ReplayPrefix(st, evs[..i + 1], evs[i + 1..]);
    assert evs[..i] + [evs[i]] == evs[..i + 1];
    ReplayPrefix(st, evs[..i], [evs[i]]);
    assert [evs[i]][1..] == [];
  }

  /** A settlement always moves the shell past the placeholder. */
  lemma SettlingPassesPlaceholder(st: AppState, outcome: Result<WeatherData, Thrown>)
    ensures PastPlaceholder(SettleSearch(st, outcome))
  {
    if outcome.Err? {
      UserMessagesDistinct(Classify(outcome.error), Classify(outcome.error));
    }
  }

  lemma {:induction false} ReplayPrefix(st: AppState, xs: seq<AppEvent>, ys: seq<AppEvent>)
    ensures Replay(st, xs + ys) == Replay(Replay(st, xs), ys)
    decreases |xs|
  {
    if |xs| == 0 {
      assert xs + ys == ys;
    } else {
      assert (xs + ys)[0] == xs[0];
      assert (xs + ys)[1..] == xs[1..] + ys;
      ReplayPrefix(Apply(st, xs[0]), xs[1..], ys);
    }
  }

  /** The first search, for the default location, succeeding: loading
      ends, no error, the snapshot is shown and the shell is initialised. */
  lemma FirstSearchSucceeds(data: WeatherData)
    ensures HandleSearch(InitialState, Ok(data)) == AppState(Some(data), false, None, true)
    ensures View(HandleSearch(InitialState, Ok(data))) == Display(data)
    ensures View(InitialState) == Placeholder
  {
  }
}

=== FILE: gemini_service.dfy ===
/** The weather query service's handling of the model's reply
    (services/geminiService.ts): preparing the reply text for the JSON
    parser, raising the format error, and collecting deduplicated
    citation sources. The remote call itself is an input. */
module GeminiService {
  import opened Wrappers
  import opened Strings
  import opened Types

  /** A thrown JavaScript value: an `Error` carrying its message, or any
      other value. */
  datatype Thrown = Error(message: string) | NonError

  /** The message of the error raised when the reply text is not JSON. */
  const InvalidFormatMessage: string := "Invalid weather data format received"

  /** The parts of the generation reply the service reads. */
  datatype Web = Web(title: string, uri: string)
  datatype GroundingChunk = GroundingChunk(web: Option<Web>)
  datatype GroundingMetadata = GroundingMetadata(groundingChunks: Option<seq<GroundingChunk>>)
  datatype Candidate = Candidate(groundingMetadata: Option<GroundingMetadata>)
  datatype GenerateResponse = GenerateResponse(text: Option<string>, candidates: Option<seq<Candidate>>)

  /** `JSON.parse` followed by the unchecked cast to the snapshot type:
      `None` when it throws. */
  type JsonParser = string -> Option<WeatherData>

  const Fence := "```"
  const JsonFence := "```json"

  // ---------------------------------------------------------------------
  // Preparing the reply text

  /** `response.text || "{}"`: an absent or empty text becomes `{}`. */
  function ResponseText(text: Option<string>): string {
    if text.Some? && text.value != [] then text.value else "{}"
  }

  /** Removing every fence leaves no fence behind: the left-to-right scan
      never joins leftover backticks into a new run of three. */
  lemma {:induction false} NoFenceAfterRemove(s: string)
    ensures !Contains(RemoveAll(s, Fence), Fence)
    decreases |s|
  {
    if |s| == 0 {
    } else if Fence <= s {
      NoFenceAfterRemove(s[|Fence|..]);
    } else {
      var rest := RemoveAll(s[1..], Fence);
      NoFenceAfterRemove(s[1..]);
      var r := [s[0]] + rest;
      assert RemoveAll(s, Fence) == r;
      assert r[1..] == rest;
    }
  }

  /** `s.replace(/```json/g, '').replace(/```/g, '').trim()`. */
  function StripFences(s: string): (r: string)
    ensures !Contains(r, Fence)
    ensures r == [] || (!IsJsWhitespace(r[0]) && !IsJsWhitespace(r[|r| - 1]))
    ensures |r| <= |s|
  {
    var inner := RemoveAll(RemoveAll(s, JsonFence), Fence);
    NoFenceAfterRemove(RemoveAll(s, JsonFence));
    TrimKeepsNoMatch(inner, Fence);
    Trim(inner)
  }

  /** The exact text handed to the JSON parser. */
  function PrepareJson(text: Option<string>): string {
    StripFences(ResponseText(text))
  }

  /** A second pass of fence stripping changes nothing. */
  lemma StripFencesIdempotent(s: string)
    ensures StripFences(StripFences(s)) == StripFences(s)
  {
    var t := StripFences(s);
    if Contains(t, JsonFence) {
      ContainsPatternPrefix(t, JsonFence, Fence);
    }
    RemoveAllWithoutMatch(t, JsonFence);
    RemoveAllWithoutMatch(t, Fence);
    TrimOfTrimmed(t);
  }

  /** Text without backticks is only trimmed. */
  lemma StripFencesPlain(body: string)
    requires forall k :: 0 <= k < |body| ==> body[k] != '`'
    ensures StripFences(body) == Trim(body)
  {
    NoMatchWithoutLeadingPair(body, JsonFence);
    NoMatchWithoutLeadingPair(body, Fence);
    RemoveAllWithoutMatch(body, JsonFence);
    RemoveAllWithoutMatch(body, Fence);
  }

  /** A backtick-free body wrapped in a ```json fence strips to the trimmed body. */
  lemma StripFencesUnwraps(body: string)
    requires forall k :: 0 <= k < |body| ==> body[k] != '`'
    ensures StripFences(JsonFence + body + Fence) == Trim(body)
  {
    var s := JsonFence + body + Fence;
    assert JsonFence <= s;
    assert s[|JsonFence|..] == body + Fence;
    RemoveAllKeepsPrefix(body, Fence, JsonFence);
    assert RemoveAll(Fence, JsonFence) == Fence;
    assert RemoveAll(s, JsonFence) == body + Fence;
    RemoveAllKeepsPrefix(body, Fence, Fence);
    assert RemoveAll(Fence, Fence) == [];
    assert body + [] == body;
  }

  /** The fenced and the unfenced forms of a non-empty backtick-free reply
      reach the parser as the same text. (An empty body differs: the bare
      fence is non-empty text and strips to "", while "" defaults to "{}".) */
  lemma FencedAndUnfencedAgree(body: string)
    requires body != []
    requires forall k :: 0 <= k < |body| ==> body[k] != '`'
    ensures PrepareJson(Some(JsonFence + body + Fence)) == PrepareJson(Some(body))
  {
    var fenced := JsonFence + body + Fence;
    assert ResponseText(Some(fenced)) == fenced;
    assert ResponseText(Some(body)) == body;
    StripFencesUnwraps(body);
    StripFencesPlain(body);
  }

  /** An absent or empty reply text reaches the parser as `{}`. */
  lemma EmptyTextBecomesEmptyObject(text: Option<string>)
    requires text.None? || text.value == []
    ensures PrepareJson(text) == "{}"
  {
    EmptyObjectStrips(ResponseText(text));
  }

  lemma EmptyObjectStrips(t: string)
    requires |t| == 2 && t[0] == '{' && t[1] == '}'
    ensures StripFences(t) == t
  {
    assert forall k :: 0 <= k < |t| ==> t[k] != '`';
    StripFencesPlain(t);
    TrimOfTrimmed(t);
  }

  // ---------------------------------------------------------------------
  // Citation sources

  /** `response.candidates?.[0]?.groundingMetadata?.groundingChunks || []`. */
  function GroundingChunks(resp: GenerateResponse): seq<GroundingChunk> {
    if && resp.candidates.Some?
       && |resp.candidates.value| > 0
       && resp.candidates.value[0].groundingMetadata.Some?
       && resp.candidates.value[0].groundingMetadata.value.groundingChunks.Some?
    then resp.candidates.value[0].groundingMetadata.value.groundingChunks.value
    else []
  }

  function SourceOf(w: Web): WeatherSource {
    WeatherSource(w.title, w.uri)
  }

  /** What one chunk contributes: its `web` field as a source, if it has one. */
  function ChunkSources(c: GroundingChunk): seq<WeatherSource> {
    if c.web.Some? then [SourceOf(c.web.value)] else []
  }

  /** The `forEach` that pushes `{title, uri}` for every chunk with a `web`
      field: every such chunk's entry is among the sources, and every
      source is the entry of such a chunk. */
  function ExtractSources(chunks: seq<GroundingChunk>): (r: seq<WeatherSource>)
    ensures |r| <= |chunks|
    ensures forall k :: 0 <= k < |chunks| && chunks[k].web.Some? ==> SourceOf(chunks[k].web.value) in r
    ensures forall x :: x in r ==>
      exists k :: 0 <= k < |chunks| && chunks[k].web.Some? && SourceOf(chunks[k].web.value) == x
  {
    if |chunks| == 0 then []
    else
      var rest := ExtractSources(chunks[1..]);
      PrependedChunkSources(chunks, rest);
      ChunkSources(chunks[0]) + rest
  }

  /** The membership facts for a chunk list follow from those for its tail. */
  lemma PrependedChunkSources(chunks: seq<GroundingChunk>, rest: seq<WeatherSource>)
    requires |chunks| > 0
    requires forall k :: 0 <= k < |chunks| - 1 && chunks[1..][k].web.Some? ==> SourceOf(chunks[1..][k].web.value) in rest
    requires forall x :: x in rest ==>
      exists k :: 0 <= k < |chunks| - 1 && chunks[1..][k].web.Some? && SourceOf(chunks[1..][k].web.value) == x
    ensures var r := ChunkSources(chunks[0]) + rest;
      && (forall k :: 0 <= k < |chunks| && chunks[k].web.Some? ==> SourceOf(chunks[k].web.value) in r)
      && (forall x :: x in r ==>
            exists k :: 0 <= k < |chunks| && chunks[k].web.Some? && SourceOf(chunks[k].web.value) == x)
  {
    var tail := chunks[1..];
    var head := ChunkSources(chunks[0]);
    var r := head + rest;
    forall k | 0 <= k < |chunks| && chunks[k].web.Some?
      ensures SourceOf(chunks[k].web.value) in r
    {
      if k > 0 {
        assert chunks[k] == tail[k - 1];
      }
    }
    forall x | x in r
      ensures exists k :: 0 <= k < |chunks| && chunks[k].web.Some? && SourceOf(chunks[k].web.value) == x
    {
      if x in head {
        assert chunks[0].web.Some? && SourceOf(chunks[0].web.value) == x;
      } else {
        var k :| 0 <= k < |tail| && tail[k].web.Some? && SourceOf(tail[k].web.value) == x;
        assert chunks[k + 1] == tail[k];
      }
    }
  }

  /** Extraction works chunk by chunk, so it keeps the chunks' order. */
  lemma {:induction false} ExtractSourcesAppend(a: seq<GroundingChunk>, b: seq<GroundingChunk>)
    ensures ExtractSources(a + b) == ExtractSources(a) + ExtractSources(b)
    decreases |a|
  {
    var ab := a + b;
    if |a| == 0 {
      assert ab == b;
    } else {
      assert ab[0] == a[0];
      assert ab[1..] == a[1..] + b;
      ExtractSourcesAppend(a[1..], b);
      calc {
        ExtractSources(ab);
        ChunkSources(a[0]) + ExtractSources(a[1..] + b);
        ChunkSources(a[0]) + (ExtractSources(a[1..]) + ExtractSources(b));
        (ChunkSources(a[0]) + ExtractSources(a[1..])) + ExtractSources(b);
      }
    }
  }

  /** When every chunk has a `web` field, the sources are those fields, one
      per chunk, position by position. */
  lemma {:induction false} ExtractSourcesAllWeb(chunks: seq<GroundingChunk>)
    requires forall k :: 0 <= k < |chunks| ==> chunks[k].web.Some?
    ensures |ExtractSources(chunks)| == |chunks|
    ensures forall k :: 0 <= k < |chunks| ==> ExtractSources(chunks)[k] == SourceOf(chunks[k].web.value)
    decreases |chunks|
  {
    if |chunks| > 0 {
      ExtractSourcesAllWeb(chunks[1..]);
    }
  }

  /** A reply without candidates or grounding metadata yields no sources. */
  lemma MissingMetadataYieldsNoSources(resp: GenerateResponse)
    requires || resp.candidates.None?
             || |resp.candidates.value| == 0
             || resp.candidates.value[0].groundingMetadata.None?
             || resp.candidates.value[0].groundingMetadata.value.groundingChunks.None?
    ensures ExtractSources(GroundingChunks(resp)) == []
  {
  }

  // ---------------------------------------------------------------------
  // Deduplication by URI

  /** `a.findIndex(t => t.uri === uri)`. */
  function FindIndex(a: seq<WeatherSource>, uri: string): (r: int)
    ensures -1 <= r < |a|
    ensures r == -1 <==> forall k :: 0 <= k < |a| ==> a[k].uri != uri
    ensures r >= 0 ==> a[r].uri == uri && forall k :: 0 <= k < r ==> a[k].uri != uri
  {
    if |a| == 0 then -1
    else if a[0].uri == uri then 0
    else
      var k := FindIndex(a[1..], uri);
      if k < 0 then -1 else k + 1
  }

  predicate DistinctUris(a: seq<WeatherSource>) {
    forall p, q :: 0 <= p < q < |a| ==> a[p].uri != a[q].uri
  }

  /** No element before position `i` shares its uri. */
  predicate FirstOfUri(a: seq<WeatherSource>, i: nat)
    requires i < |a|
  {
    forall k :: 0 <= k < i ==> a[k].uri != a[i].uri
  }

  /** `findIndex` on an element's own uri finds it or an earlier element,
      and finds exactly it when it is the first with that uri. */
  lemma FindIndexOfMember(a: seq<WeatherSource>, i: nat)
    requires i < |a|
    ensures 0 <= FindIndex(a, a[i].uri) <= i
    ensures FindIndex(a, a[i].uri) == i <==> FirstOfUri(a, i)
    ensures FirstOfUri(a, FindIndex(a, a[i].uri))
  {
    var j := FindIndex(a, a[i].uri);
    assert a[i].uri == a[i].uri;
    assert j != -1;
    assert a[j].uri == a[i].uri;
  }

  /** `idx` lists, in increasing order, positions of `a` holding the elements of `r`. */
  predicate Embeds(idx: seq<nat>, r: seq<WeatherSource>, a: seq<WeatherSource>) {
    && |idx| == |r|
    && (forall k :: 0 <= k < |idx| ==> idx[k] < |a| && r[k] == a[idx[k]])
    && (forall k, l :: 0 <= k < l < |idx| ==> idx[k] < idx[l])
  }

  /** `r` is an order-preserving subsequence of `a`. */
  ghost predicate IsSubsequenceOf(r: seq<WeatherSource>, a: seq<WeatherSource>) {
    exists idx :: Embeds(idx, r, a)
  }

  /** The filter applied to the first `n` elements: an element is kept when
      it is the first with its uri (by `FindIndexOfMember`, exactly when
      `findIndex` on its uri returns its own position). */
  function KeepFirst(a: seq<WeatherSource>, n: nat): (r: seq<WeatherSource>)
    requires n <= |a|
    ensures |r| <= n
  {
    if n == 0 then []
    else KeepFirst(a, n - 1) + (if FirstOfUri(a, n - 1) then [a[n - 1]] else [])
  }

  /** The positions `KeepFirst` keeps. */
  ghost function KeptIndices(a: seq<WeatherSource>, n: nat): seq<nat>
    requires n <= |a|
  {
    if n == 0 then []
    else KeptIndices(a, n - 1) + (if FirstOfUri(a, n - 1) then [n - 1] else [])
  }

  /** The kept elements sit, in order, at kept positions below `n`, each
      the first with its uri. */
  lemma {:induction false} KeepFirstEmbeds(a: seq<WeatherSource>, n: nat)
    requires n <= |a|
    ensures Embeds(KeptIndices(a, n), KeepFirst(a, n), a)
    ensures forall k :: 0 <= k < |KeptIndices(a, n)| ==>
      KeptIndices(a, n)[k] < n && FirstOfUri(a, KeptIndices(a, n)[k])
  {
    if n > 0 {
      KeepFirstEmbeds(a, n - 1);
      var idx, r := KeptIndices(a, n - 1), KeepFirst(a, n - 1);
      if FirstOfUri(a, n - 1) {
        assert KeptIndices(a, n) == idx + [n - 1];
        assert KeepFirst(a, n) == r + [a[n - 1]];
        EmbedsAppend(idx, r, a, n - 1);
        var idx' := idx + [n - 1];
        forall k | 0 <= k < |idx'|
          ensures idx'[k] < n && FirstOfUri(a, idx'[k])
        {
          if k < |idx| {
            assert idx'[k] == idx[k];
          }
        }
      } else {
        assert KeptIndices(a, n) == idx;
        assert KeepFirst(a, n) == r;
      }
    }
  }

  /** Extending an embedding by a later position extends the subsequence. */
  lemma EmbedsAppend(idx: seq<nat>, r: seq<WeatherSource>, a: seq<WeatherSource>, i: nat)
    requires Embeds(idx, r, a) && i < |a|
    requires forall k :: 0 <= k < |idx| ==> idx[k] < i
    ensures Embeds(idx + [i], r + [a[i]], a)
    ensures forall k :: 0 <= k < |idx + [i]| ==> (idx + [i])[k] <= i
  {
    var idx', r' := idx + [i], r + [a[i]];
    forall k | 0 <= k < |idx'|
      ensures idx'[k] < |a| && r'[k] == a[idx'[k]]
    {
      if k < |idx| {
        assert idx'[k] == idx[k] && r'[k] == r[k];
      }
    }
    forall k, l | 0 <= k < l < |idx'|
      ensures idx'[k] < idx'[l]
    {
      if l < |idx| {
        assert idx'[k] == idx[k] && idx'[l] == idx[l];
      } else {
        assert idx'[k] == idx[k];
      }
    }
  }

  /** Every kept element is the first element of the input with its uri. */
  lemma KeepFirstMembers(a: seq<WeatherSource>, n: nat)
    requires n <= |a|
    ensures forall x :: x in KeepFirst(a, n) ==> 0 <= FindIndex(a, x.uri) < n && a[FindIndex(a, x.uri)] == x
  {
    var idx, r := KeptIndices(a, n), KeepFirst(a, n);
    KeepFirstEmbeds(a, n);
    forall x | x in r
      ensures 0 <= FindIndex(a, x.uri) < n && a[FindIndex(a, x.uri)] == x
    {
      var k :| 0 <= k < |r| && r[k] == x;
      FindIndexOfMember(a, idx[k]);
    }
  }

  /** The kept elements have pairwise-distinct uris. */
  lemma KeepFirstDistinct(a: seq<WeatherSource>, n: nat)
    requires n <= |a|
    ensures DistinctUris(KeepFirst(a, n))
  {
    var idx, r := KeptIndices(a, n), KeepFirst(a, n);
    KeepFirstEmbeds(a, n);
    forall p, q | 0 <= p < q < |r|
      ensures r[p].uri != r[q].uri
    {
      assert idx[p] < idx[q] && FirstOfUri(a, idx[q]);
      assert r[p] == a[idx[p]] && r[q] == a[idx[q]];
    }
  }

  /** An element that is the first with its uri is kept once the prefix
      reaches it. */
  lemma {:induction false} KeepFirstKeeps(a: seq<WeatherSource>, n: nat, j: nat)
    requires j < n <= |a| && FirstOfUri(a, j)
    ensures a[j] in KeepFirst(a, n)
  {
    if j < n - 1 {
      KeepFirstKeeps(a, n - 1, j);
    }
  }

  /** The first element of every uri in the prefix is kept. */
  lemma KeepFirstCovers(a: seq<WeatherSource>, n: nat)
    requires n <= |a|
    ensures forall k :: 0 <= k < n ==> a[FindIndex(a, a[k].uri)] in KeepFirst(a, n)
  {
    forall k | 0 <= k < n
      ensures a[FindIndex(a, a[k].uri)] in KeepFirst(a, n)
    {
      FindIndexOfMember(a, k);
      KeepFirstKeeps(a, n, FindIndex(a, a[k].uri));
    }
  }

  /** On input with distinct uris every element is kept. */
  lemma {:induction false} KeepFirstOfDistinct(a: seq<WeatherSource>, n: nat)
    requires n <= |a|
    requires DistinctUris(a)
    ensures KeepFirst(a, n) == a[..n]
  {
    if n > 0 {
      KeepFirstOfDistinct(a, n - 1);
      assert FirstOfUri(a, n - 1);
      assert a[..n] == a[..n - 1] + [a[n - 1]];
    }
  }

  /** `sources.filter((v, i, a) => a.findIndex(t => t.uri === v.uri) === i)`:
      one source per distinct uri, the first one met, in input order. */
  function UniqueByUri(a: seq<WeatherSource>): (r: seq<WeatherSource>)
    ensures |r| <= |a|
    ensures DistinctUris(r)
    ensures forall x :: x in r ==> 0 <= FindIndex(a, x.uri) && a[FindIndex(a, x.uri)] == x
    ensures forall k :: 0 <= k < |a| ==> a[FindIndex(a, a[k].uri)] in r
  {
    KeepFirstDistinct(a, |a|);
    KeepFirstMembers(a, |a|);
    KeepFirstCovers(a, |a|);
    KeepFirst(a, |a|)
  }

  /** The deduplicated list is an order-preserving subsequence of the input. */
  lemma UniqueByUriIsSubsequence(a: seq<WeatherSource>)
    ensures IsSubsequenceOf(UniqueByUri(a), a)
  {
    KeepFirstEmbeds(a, |a|);
  }

  /** On input whose uris are already distinct, deduplication is the identity. */
  lemma UniqueByUriOfDistinct(a: seq<WeatherSource>)
    requires DistinctUris(a)
    ensures UniqueByUri(a) == a
  {
    KeepFirstOfDistinct(a, |a|);
    assert a[..|a|] == a;
  }

  /** Deduplicating twice is deduplicating once. */
  lemma UniqueByUriIdempotent(a: seq<WeatherSource>)
    ensures UniqueByUri(UniqueByUri(a)) == UniqueByUri(a)
  {
    UniqueByUriOfDistinct(UniqueByUri(a));
  }

  /** The filter as the engine runs it: for each element, a `findIndex`
      scan from the front, keeping the element when the scan stops at it. */
  method DedupSources(a: seq<WeatherSource>) returns (r: seq<WeatherSource>)
    ensures r == UniqueByUri(a)
  {
    r := [];
    var i := 0;
    while i < |a|
      invariant 0 <= i <= |a|
      invariant r == KeepFirst(a, i)
    {
      var j := 0;
      while j < |a| && a[j].uri != a[i].uri
        invariant 0 <= j <= i
        invariant forall k :: 0 <= k < j ==> a[k].uri != a[i].uri
      {
        j := j + 1;
      }
      if j == i {
        r := r + [a[i]];
      }
      i := i + 1;
    }
  }

  // ---------------------------------------------------------------------
  // The whole reply

  /** Every uri cited by a chunk with a `web` field survives extraction
      and deduplication. */
  lemma EveryCitedUriKept(chunks: seq<GroundingChunk>)
    ensures forall c :: c in chunks && c.web.Some? ==>
      exists x :: x in UniqueByUri(ExtractSources(chunks)) && x.uri == c.web.value.uri
  {
    var extracted := ExtractSources(chunks);
    var sources := UniqueByUri(extracted);
    forall c | c in chunks && c.web.Some?
      ensures exists x :: x in sources && x.uri == c.web.value.uri
    {
      var k :| 0 <= k < |chunks| && chunks[k] == c;
      var s := SourceOf(c.web.value);
      assert s in extracted;
      var m :| 0 <= m < |extracted| && extracted[m] == s;
      var x := extracted[FindIndex(extracted, s.uri)];
      assert x in sources;
    }
  }

  /** `getWeatherData` given the settled remote call: a thrown call is
      rethrown as is; text the parser rejects raises the format error;
      otherwise the parsed snapshot gets the deduplicated sources. */
  function GetWeatherData(call: Result<GenerateResponse, Thrown>, parse: JsonParser): (r: Result<WeatherData, Thrown>)
    ensures call.Err? ==> r == Err(call.error)
    ensures call.Ok? ==> (r.Err? <==> parse(PrepareJson(call.value.text)).None?)
    ensures call.Ok? && r.Err? ==> r.error == Error(InvalidFormatMessage)
    ensures r.Ok? ==> r.value.sources.Some? && DistinctUris(r.value.sources.value)
    ensures r.Ok? ==> forall c :: c in GroundingChunks(call.value) && c.web.Some? ==>
      exists x :: x in r.value.sources.value && x.uri == c.web.value.uri
    ensures r.Ok? ==>
      && call.Ok? && parse(PrepareJson(call.value.text)).Some?
      && r.value == parse(PrepareJson(call.value.text)).value.(sources := Some(UniqueByUri(ExtractSources(GroundingChunks(call.value)))))
  {
    match call
    case Err(e) => Err(e)
    case Ok(resp) =>
      var parsed := parse(PrepareJson(resp.text));
      if parsed.None? then Err(Error(InvalidFormatMessage))
      else
        var sources := UniqueByUri(ExtractSources(GroundingChunks(resp)));
        EveryCitedUriKept(GroundingChunks(resp));
        Ok(parsed.value.(sources := Some(sources)))
  }

  /** An absent or empty reply text never raises the format error when the
      parser accepts `{}`. */
  lemma EmptyReplyIsNotAFormatError(resp: GenerateResponse, parse: JsonParser)
    requires resp.text.None? || resp.text.value == []
    requires parse("{}").Some?
    ensures GetWeatherData(Ok(resp), parse).Ok?
  {
    EmptyTextBecomesEmptyObject(resp.text);
  }

  /** Wrapping a reply's text in a ```json fence does not change the result. */
  lemma FencedReplyParsesAlike(resp: GenerateResponse, body: string, parse: JsonParser)
    requires resp.text == Some(body) && body != []
    requires forall k :: 0 <= k < |body| ==> body[k] != '`'
    ensures GetWeatherData(Ok(resp.(text := Some(JsonFence + body + Fence))), parse) == GetWeatherData(Ok(resp), parse)
  {
    FencedAndUnfencedAgree(body);
    SameParserInputSameResult(resp.(text := Some(JsonFence + body + Fence)), resp, parse);
  }

  /** The result depends on the reply only through the parser's input and
      the grounding chunks. */
  lemma SameParserInputSameResult(r1: GenerateResponse, r2: GenerateResponse, parse: JsonParser)
    requires PrepareJson(r1.text) == PrepareJson(r2.text)
    requires GroundingChunks(r1) == GroundingChunks(r2)
    ensures GetWeatherData(Ok(r1), parse) == GetWeatherData(Ok(r2), parse)
  {
  }

  /** Two citations sharing a uri collapse to the first. */
  lemma DuplicateUriKeepsFirst()
    ensures UniqueByUri([WeatherSource("A", "http://x"), WeatherSource("B", "http://x")]) == [WeatherSource("A", "http://x")]
  {
  }
}

=== FILE: search_bar.dfy ===
/** The search input's control logic (components/SearchBar.tsx): when
    suggestions are fetched and shown, which handlers call `onSearch` and
    with what, and the current-location flow. The debounce timer, the
    suggestion fetch, the document click listener and the geolocation
    callbacks are events; the fetched names are an input. */
module SearchBar {
  import opened Wrappers
  import opened Strings

  /** The component's four state hooks, plus what is pending outside them:
      whether the debounce timer armed for the current query has yet to
      fire, and how many suggestion fetches have started and not resolved
      (clearing a timer does not cancel a fetch it already started). */
  datatype BarState = BarState(
    query: string,
    suggestions: seq<string>,
    showSuggestions: bool,
    isLocating: bool,
    timerPending: bool,
    fetchesInFlight: nat)

  /** The first render: empty hooks, and the effect for the empty query has
      armed its timer. */
  const InitialBar := BarState("", [], false, false, true, 0)

  /** A handler's result: the next state and the location passed to
      `onSearch`, if it called it. */
  datatype Step = Step(next: BarState, search: Option<string>)

  /** The friendly text shown in the input while a position is searched. */
  const LocatingText := "현위치 (확인 중...)"

  /** Suggestions are fetched for a query longer than one UTF-16 code unit
      that does not look like coordinates. */
  predicate WantsSuggestions(query: string)
    ensures |query| > 1 && !Contains(query, "latitude") ==> WantsSuggestions(query)
    ensures query == [] || Contains(query, "latitude") ==> !WantsSuggestions(query)
    ensures AllBmp(query) ==> (WantsSuggestions(query) <==> |query| > 1 && !Contains(query, "latitude"))
  {
    Utf16LengthOfBmp(query);
    Utf16Length(query) > 1 && !Contains(query, "latitude")
  }

  /** `setQuery`: the debounce effect depends on `query` alone, so it
      clears the old timer and arms a new one only when the value changes. */
  function SetQuery(st: BarState, q: string): (r: BarState)
    ensures r.query == q
    ensures r.timerPending <==> st.timerPending || q != st.query
    ensures r.suggestions == st.suggestions && r.showSuggestions == st.showSuggestions
    ensures r.isLocating == st.isLocating && r.fetchesInFlight == st.fetchesInFlight
  {
    st.(query := q, timerPending := st.timerPending || q != st.query)
  }

  /** The timer fires and `fetchSuggestions` tests the query it was armed
      for: a wanted query starts a fetch, any other empties and hides the
      panel at once. */
  function FireDebounce(st: BarState): (r: BarState)
    ensures !r.timerPending && r.query == st.query && r.isLocating == st.isLocating
    ensures WantsSuggestions(st.query) ==>
      && r.fetchesInFlight == st.fetchesInFlight + 1
      && r.suggestions == st.suggestions && r.showSuggestions == st.showSuggestions
    ensures !WantsSuggestions(st.query) ==>
      r.fetchesInFlight == st.fetchesInFlight && r.suggestions == [] && !r.showSuggestions
  {
    if WantsSuggestions(st.query) then st.(timerPending := false, fetchesInFlight := st.fetchesInFlight + 1)
    else st.(timerPending := false, suggestions := [], showSuggestions := false)
  }

  /** A started fetch resolves: its names replace the suggestions and the
      panel is shown, whatever the query has become meanwhile. */
  function ReceiveSuggestions(st: BarState, results: seq<string>): (r: BarState)
    requires st.fetchesInFlight > 0
    ensures r.fetchesInFlight == st.fetchesInFlight - 1
    ensures r.suggestions == results && r.showSuggestions
    ensures r.query == st.query && r.isLocating == st.isLocating && r.timerPending == st.timerPending
  {
    st.(suggestions := results, showSuggestions := true, fetchesInFlight := st.fetchesInFlight - 1)
  }

  /** `handleSubmit`: searches for the untrimmed query when it has a
      non-whitespace code point, and otherwise does nothing. */
  function Submit(st: BarState): (s: Step)
    ensures s.search.Some? <==> !AllWhitespace(st.query)
    ensures s.search.Some? ==> s.search.value == st.query && s.next == st.(showSuggestions := false)
    ensures s.search.None? ==> s.next == st
  {
    TrimEmptyIffBlank(st.query);
    if Trim(st.query) != [] then Step(st.(showSuggestions := false), Some(st.query))
    else Step(st, None)
  }

  /** `handleSuggestionClick`. */
  function SelectSuggestion(st: BarState, location: string): (s: Step)
    ensures s.search == Some(location) && s.next.query == location && !s.next.showSuggestions
    ensures s.next.timerPending <==> st.timerPending || location != st.query
    ensures && s.next.suggestions == st.suggestions && s.next.isLocating == st.isLocating
            && s.next.fetchesInFlight == st.fetchesInFlight
  {
    Step(SetQuery(st, location).(showSuggestions := false), Some(location))
  }

  /** The query that carries a device position to the service. */
  function CoordinateQuery(latitude: string, longitude: string): string {
    "latitude: " + latitude + ", longitude: " + longitude
  }

  ghost predicate IsCoordinateQuery(q: string) {
    exists latitude, longitude :: q == CoordinateQuery(latitude, longitude)
  }

  /** `handleCurrentLocation` up to the position request: without
      geolocation support it only alerts. */
  function RequestLocation(st: BarState, geolocationSupported: bool): (s: Step)
    ensures s.search.None? && (s.next.isLocating <==> st.isLocating || geolocationSupported)
    ensures s.next.(isLocating := st.isLocating) == st
  {
    if geolocationSupported then Step(st.(isLocating := true), None) else Step(st, None)
  }

  /** The position callback: the coordinates go to `onSearch` while the
      input shows the friendly text. */
  function LocationFound(st: BarState, latitude: string, longitude: string): (s: Step)
    ensures s.search == Some(CoordinateQuery(latitude, longitude))
    ensures s.next.query == LocatingText && !s.next.isLocating && !s.next.showSuggestions
    ensures s.next.timerPending <==> st.timerPending || st.query != LocatingText
    ensures s.next.suggestions == st.suggestions && s.next.fetchesInFlight == st.fetchesInFlight
  {
    Step(SetQuery(st, LocatingText).(isLocating := false, showSuggestions := false),
         Some(CoordinateQuery(latitude, longitude)))
  }

  /** The error callback: alerts and stops locating. */
  function LocationFailed(st: BarState): (s: Step)
    ensures s.search.None? && !s.next.isLocating
    ensures s.next.(isLocating := st.isLocating) == st
  {
    Step(st.(isLocating := false), None)
  }

  /** The suggestion panel renders only when shown and non-empty. */
  predicate PanelVisible(st: BarState) {
    st.showSuggestions && |st.suggestions| > 0
  }

  /** The input and the location button are disabled while the shell is
      loading or a position is being found. */
  predicate ControlsDisabled(st: BarState, isLoading: bool) {
    isLoading || st.isLocating
  }

  /** What can happen to the component. */
  datatype BarEvent =
    | TextTyped(text: string)
    | FormSubmitted
    | SuggestionClicked(location: string)
    | LocateClicked(geolocationSupported: bool)
    | PositionReceived(latitude: string, longitude: string)
    | PositionFailed
    | DebounceFired
    | SuggestionsArrived(results: seq<string>)
    | MouseDownOutside

  /** One event, with the shell's `isLoading` at that moment. A disabled
      input takes no typing and cannot submit the form, a disabled button
      takes no click, suggestion buttons exist only while the panel is
      visible, a position callback answers an outstanding request, a timer
      fires only while armed, and results arrive only for a started fetch. */
  function Dispatch(st: BarState, isLoading: bool, ev: BarEvent): Step {
    match ev
    case TextTyped(text) =>
      if ControlsDisabled(st, isLoading) then Step(st, None) else Step(SetQuery(st, text), None)
    case FormSubmitted =>
      if ControlsDisabled(st, isLoading) then Step(st, None) else Submit(st)
    case SuggestionClicked(location) =>
      if PanelVisible(st) && location in st.suggestions then SelectSuggestion(st, location) else Step(st, None)
    case LocateClicked(supported) =>
      if ControlsDisabled(st, isLoading) then Step(st, None) else RequestLocation(st, supported)
    case PositionReceived(latitude, longitude) =>
      if st.isLocating then LocationFound(st, latitude, longitude) else Step(st, None)
    case PositionFailed =>
      if st.isLocating then LocationFailed(st) else Step(st, None)
    case DebounceFired =>
      if st.timerPending then Step(FireDebounce(st), None) else Step(st, None)
    case SuggestionsArrived(results) =>
      if st.fetchesInFlight > 0 then Step(ReceiveSuggestions(st, results), None) else Step(st, None)
    case MouseDownOutside => Step(st.(showSuggestions := false), None)
  }

  /** An event together with the shell's `isLoading` when it happens. */
  datatype BarInput = BarInput(isLoading: bool, ev: BarEvent)

  /** The state after a trace of inputs. */
  function Run(st: BarState, ins: seq<BarInput>): BarState
    decreases |ins|
  {
    if |ins| == 0 then st else Run(Dispatch(st, ins[0].isLoading, ins[0].ev).next, ins[1..])
  }

  /** The locations passed to `onSearch` along a trace, in order. */
  function Issued(st: BarState, ins: seq<BarInput>): seq<string>
    decreases |ins|
  {
    if |ins| == 0 then []
    else
      var s := Dispatch(st, ins[0].isLoading, ins[0].ev);
      (if s.search.Some? then [s.search.value] else []) + Issued(s.next, ins[1..])
  }

  /** Every text typed into the input along a trace. */
  function TypedTexts(ins: seq<BarInput>): seq<string>
    decreases |ins|
  {
    if |ins| == 0 then []
    else (if ins[0].ev.TextTyped? then [ins[0].ev.text] else []) + TypedTexts(ins[1..])
  }

  /** Every name some fetch delivered along a trace. */
  function Arrived(ins: seq<BarInput>): seq<string>
    decreases |ins|
  {
    if |ins| == 0 then []
    else (if ins[0].ev.SuggestionsArrived? then ins[0].ev.results else []) + Arrived(ins[1..])
  }

  // ---------------------------------------------------------------------
  // One step

  /** Every search the component issues is a non-blank typed query, a
      suggestion from the visible panel, or a coordinate query, and the
      panel is hidden afterwards. */
  lemma IssuedSearches(st: BarState, isLoading: bool, ev: BarEvent)
    requires Dispatch(st, isLoading, ev).search.Some?
    ensures !PanelVisible(Dispatch(st, isLoading, ev).next)
    ensures var q := Dispatch(st, isLoading, ev).search.value;
      || (ev.FormSubmitted? && q == st.query && !AllWhitespace(q))
      || (ev.SuggestionClicked? && PanelVisible(st) && q in st.suggestions)
      || (ev.PositionReceived? && q == CoordinateQuery(ev.latitude, ev.longitude))
  {
  }

  /** While the controls are disabled, typing, submitting and the location
      button change nothing and search for nothing. */
  lemma DisabledControlsInert(st: BarState, isLoading: bool, ev: BarEvent)
    requires ControlsDisabled(st, isLoading)
    requires ev.TextTyped? || ev.FormSubmitted? || ev.LocateClicked?
    ensures Dispatch(st, isLoading, ev) == Step(st, None)
  {
  }

  /** With no timer pending, an event arms one exactly when it changes the
      query: setting the query to its current value re-runs no effect. */
  lemma TimerArmedOnlyByQueryChange(st: BarState, isLoading: bool, ev: BarEvent)
    requires !st.timerPending
    ensures Dispatch(st, isLoading, ev).next.timerPending <==> Dispatch(st, isLoading, ev).next.query != st.query
  {
  }

  /** A fetch starts exactly when an armed timer fires for a wanted query. */
  lemma FetchOnlyForWantedQuery(st: BarState, isLoading: bool, ev: BarEvent)
    ensures Dispatch(st, isLoading, ev).next.fetchesInFlight > st.fetchesInFlight
        <==> ev.DebounceFired? && st.timerPending && WantsSuggestions(st.query)
  {
  }

  /** A hidden panel is shown again exactly when a started fetch resolves. */
  lemma PanelOpensOnlyOnResults(st: BarState, isLoading: bool, ev: BarEvent)
    requires !st.showSuggestions
    ensures Dispatch(st, isLoading, ev).next.showSuggestions
        <==> ev.SuggestionsArrived? && st.fetchesInFlight > 0
  {
  }

  // ---------------------------------------------------------------------
  // Traces

  /** A supported location click the component takes. */
  predicate StartsLocating(inp: BarInput) {
    inp.ev == LocateClicked(true) && !inp.isLoading
  }

  predicate EndsLocating(inp: BarInput) {
    inp.ev.PositionReceived? || inp.ev.PositionFailed?
  }

  /** No position callback arrives after index `i`. */
  predicate QuietAfter(ins: seq<BarInput>, i: int) {
    forall j :: i < j < |ins| && 0 <= j ==> !EndsLocating(ins[j])
  }

  /** One input starts locating, ends it, or leaves it as it was. */
  lemma LocatingStep(st: BarState, x: BarInput)
    ensures Dispatch(st, x.isLoading, x.ev).next.isLocating
        <==> StartsLocating(x) || (st.isLocating && !EndsLocating(x))
  {
  }

  /** `isLocating` holds exactly from a supported location click until the
      next position callback, so the input and the button stay disabled
      over that span and only there. */
  lemma {:induction false} LocatingSpan(st: BarState, ins: seq<BarInput>)
    ensures Run(st, ins).isLocating <==>
      || (st.isLocating && QuietAfter(ins, -1))
      || exists i :: 0 <= i < |ins| && StartsLocating(ins[i]) && QuietAfter(ins, i)
    decreases |ins|
  {
    if |ins| > 0 {
      var x, rest := ins[0], ins[1..];
      var next := Dispatch(st, x.isLoading, x.ev).next;
      LocatingSpan(next, rest);
      assert forall j :: 0 <= j < |rest| ==> rest[j] == ins[j + 1];
      assert QuietAfter(rest, -1) <==> QuietAfter(ins, 0);
      assert forall i :: 0 <= i < |rest| ==> (QuietAfter(rest, i) <==> QuietAfter(ins, i + 1));
      var later := exists i :: 0 <= i < |rest| && StartsLocating(rest[i]) && QuietAfter(rest, i);
      var here := exists i :: 0 <= i < |ins| && StartsLocating(ins[i]) && QuietAfter(ins, i);
      if later {
        var i :| 0 <= i < |rest| && StartsLocating(rest[i]) && QuietAfter(rest, i);
        assert StartsLocating(ins[i + 1]) && QuietAfter(ins, i + 1);
      }
      if here {
        var i :| 0 <= i < |ins| && StartsLocating(ins[i]) && QuietAfter(ins, i);
        if i > 0 {
          assert StartsLocating(rest[i - 1]) && QuietAfter(rest, i - 1);
        }
      }
      LocatingStep(st, x);
      if EndsLocating(x) {
        assert !QuietAfter(ins, -1);
      } else {
        assert QuietAfter(ins, -1) <==> QuietAfter(ins, 0);
      }
    }
  }

  /** After one input the query is the old one, the typed text, the
      locating text or an offered name, and every suggestion was offered
      before or just arrived. */
  lemma StepOrigins(st: BarState, x: BarInput)
    ensures var n := Dispatch(st, x.isLoading, x.ev).next;
      && (|| n.query == st.query
          || (x.ev.TextTyped? && n.query == x.ev.text)
          || n.query == LocatingText
          || (x.ev.SuggestionClicked? && n.query in st.suggestions))
      && forall q :: q in n.suggestions ==>
           q in st.suggestions || (x.ev.SuggestionsArrived? && q in x.ev.results)
  {
  }

  /** Along any trace, every search is a non-blank query that the input
      held (at the start, typed, the locating text, or a name the panel
      offered), a name the panel held at the start or some fetch
      delivered, or a coordinate query. */
  lemma {:induction false} TraceSearches(st: BarState, ins: seq<BarInput>)
    ensures forall q :: q in Issued(st, ins) ==>
      || (&& !AllWhitespace(q)
          && (|| q == st.query || q in TypedTexts(ins) || q == LocatingText
              || q in st.suggestions || q in Arrived(ins)))
      || q in st.suggestions
      || q in Arrived(ins)
      || IsCoordinateQuery(q)
    decreases |ins|
  {
    if |ins| > 0 {
      var x := ins[0];
      var s := Dispatch(st, x.isLoading, x.ev);
      TraceSearches(s.next, ins[1..]);
      assert Arrived(ins) == (if x.ev.SuggestionsArrived? then x.ev.results else []) + Arrived(ins[1..]);
      assert TypedTexts(ins) == (if x.ev.TextTyped? then [x.ev.text] else []) + TypedTexts(ins[1..]);
      StepOrigins(st, x);
      if s.search.Some? {
        IssuedSearches(st, x.isLoading, x.ev);
        if x.ev.PositionReceived? {
          assert s.search.value == CoordinateQuery(x.ev.latitude, x.ev.longitude);
        }
      }
    }
  }

  // ---------------------------------------------------------------------
  // Consequences for the suggestion panel

  /** `"latitude"` never fits in a string shorter than it. */
  lemma ShortLacksLatitude(q: string)
    requires |q| < 8
    ensures !Contains(q, "latitude")
  {
    ContainsIffOccurs(q, "latitude");
  }

  /** A character above U+FFFF is two code units, so a one-code-point query
      such as "😀" already wants suggestions. */
  lemma AstralQueryWantsSuggestions(q: string)
    requires q == "😀"
    ensures |q| == 1 && Utf16Length(q) == 2 && WantsSuggestions(q)
  {
    assert q[1..] == [];
    ShortLacksLatitude(q);
  }

  /** Results of a fetch started for an older query still open the panel:
      type "서울", let the timer fire, shorten the query to "서", let its
      timer empty the panel, and the "서울" names arrive and show under a
      query that wants none. */
  lemma StaleResultsShown(results: seq<string>)
    requires results != []
    ensures var s1 := Dispatch(InitialBar, false, TextTyped("서울")).next;
            var s2 := Dispatch(s1, false, DebounceFired).next;
            var s3 := Dispatch(s2, false, TextTyped("서")).next;
            var s4 := Dispatch(s3, false, DebounceFired).next;
            var s5 := Dispatch(s4, false, SuggestionsArrived(results)).next;
            && s2.fetchesInFlight == 1 && !PanelVisible(s4)
            && PanelVisible(s5) && s5.query == "서" && !WantsSuggestions(s5.query)
  {
    var long, short := "서울", "서";
    assert long[1..][1..] == [] && short[1..] == [];
    ShortLacksLatitude(long);
  }

  /** A coordinate query never asks for suggestions, since it contains
      "latitude". The component never stores it in `query`, though: the
      position callback passes it to `onSearch` only and puts the friendly
      text in the input, so the guard meets `LocatingText` instead (see
      `LocationFoundThenSuggests`). */
  lemma CoordinateQueryWantsNoSuggestions(latitude: string, longitude: string)
    ensures !WantsSuggestions(CoordinateQuery(latitude, longitude))
  {
    var q := CoordinateQuery(latitude, longitude);
    assert "latitude" <= q;
  }

  /** No occurrence of "latitude" can start in `s`: it has no Latin l. */
  predicate LacksLeadOfLatitude(s: string) {
    forall i :: 0 <= i < |s| ==> s[i] != 'l'
  }

  lemma LocatingTextLetters(s: string)
    requires s == LocatingText
    ensures LacksLeadOfLatitude(s) && |s| > 1
  {
  }

  /** The query a found position leaves in the input is the friendly text,
      not the coordinates, so the "latitude" guard does not hold the
      suggestion fetch back: when the input held something else, the
      change arms the timer, its firing starts a fetch, and the fetched
      names are shown. */
  lemma LocationFoundThenSuggests(st: BarState, latitude: string, longitude: string, results: seq<string>)
    requires st.isLocating && st.query != LocatingText && results != []
    ensures var s1 := Dispatch(st, false, PositionReceived(latitude, longitude)).next;
            var s2 := Dispatch(s1, false, DebounceFired).next;
            var s3 := Dispatch(s2, false, SuggestionsArrived(results)).next;
            && !PanelVisible(s1) && s1.timerPending
            && s2.fetchesInFlight == st.fetchesInFlight + 1
            && PanelVisible(s3) && s3.suggestions == results && s3.query == LocatingText
  {
    LocatingTextLetters(LocatingText);
    NoMatchWithoutLeadingPair(LocatingText, "latitude");
  }

  /** Clicking a suggestion hides the panel, but a location that differs
      from the query re-arms the debounce, whose fetch shows the panel
      again for a query of two or more code units. */
  lemma SelectedSuggestionReopens(st: BarState, location: string, results: seq<string>)
    requires location != st.query && WantsSuggestions(location) && results != []
    ensures var s1 := SelectSuggestion(st, location).next;
            var s2 := Dispatch(s1, false, DebounceFired).next;
            var s3 := Dispatch(s2, false, SuggestionsArrived(results)).next;
            && !PanelVisible(s1) && s1.timerPending
            && s2.fetchesInFlight == st.fetchesInFlight + 1
            && PanelVisible(s3) && s3.suggestions == results && s3.query == location
  {
  }

  /** Clicking a suggestion equal to the query arms nothing: with no timer
      pending and no fetch in flight, the panel stays hidden until the
      user types. */
  lemma ReselectingQueryStaysClosed(st: BarState, isLoading: bool, ev: BarEvent)
    requires !st.timerPending && st.fetchesInFlight == 0
    requires ev.DebounceFired? || ev.SuggestionsArrived? || ev.MouseDownOutside? || ev.FormSubmitted?
    ensures var s1 := SelectSuggestion(st, st.query).next;
            && !s1.timerPending && !s1.showSuggestions
            && !Dispatch(s1, isLoading, ev).next.showSuggestions
  {
  }
}

=== FILE: strings.dfy ===
/** The JavaScript string operations the application relies on, over
    strings as sequences of code points. JavaScript strings are UTF-16,
    so `length` is measured separately by `Utf16Length`; the searches,
    trims and case folds below only ever look for BMP code points, which
    are one code unit each, so they agree with the code-unit versions. */
module Strings {

  /** The code points `String.prototype.trim` removes: ECMAScript's
      WhiteSpace (TAB, VT, FF, ZWNBSP and the Unicode space separators)
      and LineTerminator (LF, CR, LS, PS). */
  predicate IsJsWhitespace(c: char) {
    || c == '\t' || c == '\n' || c == '\U{B}' || c == '\U{C}' || c == '\r'
    || c == ' ' || c == '\U{A0}' || c == '\U{1680}'
    || ('\U{2000}' <= c <= '\U{200A}')
    || c == '\U{2028}' || c == '\U{2029}' || c == '\U{202F}' || c == '\U{205F}'
    || c == '\U{3000}' || c == '\U{FEFF}'
  }

  predicate AllWhitespace(s: string) {
    forall k :: 0 <= k < |s| ==> IsJsWhitespace(s[k])
  }

  /** `p` occurs in `s` starting at index `i`. */
  predicate OccursAt(s: string, p: string, i: int) {
    0 <= i && i + |p| <= |s| && s[i..i + |p|] == p
  }

  /** `s.includes(p)`, by scanning `s` from the left. */
  predicate Contains(s: string, p: string)
    decreases |s|
  {
    p <= s || (|s| > 0 && Contains(s[1..], p))
  }

  /** The scanning definition of `Contains` agrees with "some occurrence
      exists", in both directions. */
  lemma ContainsIffOccurs(s: string, p: string)
    ensures Contains(s, p) <==> exists i :: OccursAt(s, p, i)
  {
    if Contains(s, p) {
      var i := OccurrenceOfContains(s, p);
    }
    if exists i :: OccursAt(s, p, i) {
      var i :| OccursAt(s, p, i);
      ContainsOfOccurrence(s, p, i);
    }
  }

  /** The position where the scan finds `p`. */
  lemma {:induction false} OccurrenceOfContains(s: string, p: string) returns (i: nat)
    requires Contains(s, p)
    ensures OccursAt(s, p, i)
    decreases |s|
  {
    if p <= s {
      i := 0;
    } else {
      var k := OccurrenceOfContains(s[1..], p);
      SliceOfSuffix(s, 1, k);
      assert s[1..][k..k + |p|] == s[k + 1..k + 1 + |p|];
      i := k + 1;
    }
  }

  /** The scan finds every occurrence. */
  lemma {:induction false} ContainsOfOccurrence(s: string, p: string, i: nat)
    requires OccursAt(s, p, i)
    ensures Contains(s, p)
    decreases i
  {
    if i > 0 {
      assert s[1..][i - 1..i - 1 + |p|] == s[i..i + |p|];
      ContainsOfOccurrence(s[1..], p, i - 1);
    }
  }

  /** An occurrence of `p` inside a contiguous slice of `s` is an occurrence in `s`. */
  lemma {:induction false} ContainsInSlice(s: string, i: nat, j: nat, p: string)
    requires i <= j <= |s|
    requires Contains(s[i..j], p)
    ensures Contains(s, p)
  {
    ContainsIffOccurs(s[i..j], p);
    var k :| OccursAt(s[i..j], p, k);
    assert k + |p| <= j - i;
    var u, w := s[i..j][k..k + |p|], s[i + k..i + k + |p|];
    assert forall m :: 0 <= m < |p| ==> u[m] == w[m];
    assert u == w;
    assert OccursAt(s, p, i + k);
    ContainsIffOccurs(s, p);
  }

  /** Wherever a pattern occurs, so does every prefix of it. */
  lemma {:induction false} ContainsPatternPrefix(s: string, p: string, q: string)
    requires q <= p
    requires Contains(s, p)
    ensures Contains(s, q)
    decreases |s|
  {
    if !(p <= s) {
      ContainsPatternPrefix(s[1..], p, q);
    }
  }

  /** A pattern can only occur where its first two code points appear side
      by side (the first alone when the pattern has length one). */
  lemma {:induction false} NoMatchWithoutLeadingPair(s: string, p: string)
    requires |p| > 0
    requires forall i :: 0 <= i < |s| ==> s[i] != p[0] || (|p| > 1 && (i + 1 == |s| || s[i + 1] != p[1]))
    ensures !Contains(s, p)
  {
    ContainsIffOccurs(s, p);
    forall i | 0 <= i && i + |p| <= |s|
      ensures !OccursAt(s, p, i)
    {
      var w := s[i..i + |p|];
      if s[i] != p[0] {
        assert w[0] != p[0];
      } else {
        assert |p| > 1 && i + 1 < |s| && s[i + 1] != p[1];
        assert w[1] != p[1];
      }
    }
  }

  /** `s.replace(/p/g, '')`: every match of `p` removed, scanning from the
      left and resuming the scan just after each removed match. */
  function RemoveAll(s: string, p: string): (r: string)
    requires |p| > 0
    ensures |r| <= |s|
    ensures forall k :: 0 <= k < |r| ==> r[k] in s
    decreases |s|
  {
    if |s| == 0 then []
    else if p <= s then RemoveAll(s[|p|..], p)
    else [s[0]] + RemoveAll(s[1..], p)
  }

  /** Without a match there is nothing to remove. */
  lemma {:induction false} RemoveAllWithoutMatch(s: string, p: string)
    requires |p| > 0
    requires !Contains(s, p)
    ensures RemoveAll(s, p) == s
    decreases |s|
  {
    if |s| > 0 {
      RemoveAllWithoutMatch(s[1..], p);
      assert [s[0]] + s[1..] == s;
    }
  }

  /** A prefix that cannot start a match is kept verbatim. */
  lemma {:induction false} RemoveAllKeepsPrefix(a: string, b: string, p: string)
    requires |p| > 0
    requires forall k :: 0 <= k < |a| ==> a[k] != p[0]
    ensures RemoveAll(a + b, p) == a + RemoveAll(b, p)
    decreases |a|
  {
    if |a| == 0 {
      assert a + b == b;
    } else {
      assert (a + b)[0] == a[0];
      assert !(p <= a + b);
      assert (a + b)[1..] == a[1..] + b;
      RemoveAllKeepsPrefix(a[1..], b, p);
      assert [a[0]] + (a[1..] + RemoveAll(b, p)) == a + RemoveAll(b, p);
    }
  }

  /** `s` with its leading whitespace removed. */
  function TrimStart(s: string): (r: string)
    ensures |r| <= |s| && r == s[|s| - |r|..]
    ensures AllWhitespace(s[..|s| - |r|])
    ensures r == [] || !IsJsWhitespace(r[0])
    decreases |s|
  {
    if |s| > 0 && IsJsWhitespace(s[0]) then
      var r := TrimStart(s[1..]);
      WhitespacePrefixGrows(s, |s| - 1 - |r|);
      r
    else
      s
  }

  /** A whitespace code point before a whitespace prefix of the rest. */
  lemma WhitespacePrefixGrows(s: string, n: nat)
    requires n < |s| && IsJsWhitespace(s[0]) && AllWhitespace(s[1..][..n])
    ensures AllWhitespace(s[..n + 1])
    ensures s[1..][n..] == s[n + 1..]
  {
    forall k | 0 <= k <= n
      ensures IsJsWhitespace(s[k])
    {
      if k > 0 {
        assert s[k] == s[1..][..n][k - 1];
      }
    }
  }

  /** `s` with its trailing whitespace removed. */
  function TrimEnd(s: string): (r: string)
    ensures |r| <= |s| && r == s[..|r|]
    ensures AllWhitespace(s[|r|..])
    ensures r == [] || !IsJsWhitespace(r[|r| - 1])
    decreases |s|
  {
    if |s| > 0 && IsJsWhitespace(s[|s| - 1]) then
      var r := TrimEnd(s[..|s| - 1]);
      WhitespaceSuffixGrows(s, |r|);
      r
    else
      s
  }

  /** A whitespace suffix of all but the last code point, followed by a
      whitespace last code point. */
  lemma WhitespaceSuffixGrows(s: string, m: nat)
    requires m < |s| && IsJsWhitespace(s[|s| - 1]) && AllWhitespace(s[..|s| - 1][m..])
    ensures AllWhitespace(s[m..])
    ensures s[..|s| - 1][..m] == s[..m]
  {
    forall k | 0 <= k < |s| - 1 - m
      ensures IsJsWhitespace(s[m..][k])
    {
      assert s[m..][k] == s[..|s| - 1][m..][k];
    }
  }

  /** `r` is `s` less a whitespace prefix and a whitespace suffix, and
      starts and ends with a non-whitespace code point (or is empty). */
  predicate IsTrimOf(r: string, s: string) {
    && (exists i, j :: 0 <= i <= j <= |s| && r == s[i..j] && AllWhitespace(s[..i]) && AllWhitespace(s[j..]))
    && (r == [] || (!IsJsWhitespace(r[0]) && !IsJsWhitespace(r[|r| - 1])))
  }

  /** `s.trim()`. */
  function Trim(s: string): (r: string)
    ensures IsTrimOf(r, s)
  {
    var t := TrimStart(s);
    var r := TrimEnd(t);
    TrimEndOfTrimStart(s, t, r);
    r
  }

  /** Trimming the end of the start-trimmed string trims both sides. */
  lemma TrimEndOfTrimStart(s: string, t: string, r: string)
    requires |t| <= |s| && t == s[|s| - |t|..] && AllWhitespace(s[..|s| - |t|])
    requires t == [] || !IsJsWhitespace(t[0])
    requires |r| <= |t| && r == t[..|r|] && AllWhitespace(t[|r|..])
    requires r == [] || !IsJsWhitespace(r[|r| - 1])
    ensures IsTrimOf(r, s)
  {
    var i := |s| - |t|;
    var j := i + |r|;
    SliceOfSuffix(s, i, |r|);
    assert r == [] || r[0] == t[0];
    TrimWitness(r, s, i, j);
  }

  lemma TrimWitness(r: string, s: string, i: nat, j: nat)
    requires i <= j <= |s| && r == s[i..j]
    requires AllWhitespace(s[..i]) && AllWhitespace(s[j..])
    requires r == [] || (!IsJsWhitespace(r[0]) && !IsJsWhitespace(r[|r| - 1]))
    ensures IsTrimOf(r, s)
  {
  }

  /** Slicing a suffix is slicing the whole. */
  lemma SliceOfSuffix(s: string, i: nat, m: nat)
    requires i + m <= |s|
    ensures s[i..][..m] == s[i..i + m]
    ensures s[i..][m..] == s[i + m..]
  {
  }

  /** Trimming cannot create an occurrence of a pattern. */
  lemma TrimKeepsNoMatch(s: string, p: string)
    requires !Contains(s, p)
    ensures !Contains(Trim(s), p)
  {
    NoMatchInTrimmed(Trim(s), s, p);
  }

  lemma NoMatchInTrimmed(r: string, s: string, p: string)
    requires IsTrimOf(r, s) && !Contains(s, p)
    ensures !Contains(r, p)
  {
    var i, j :| 0 <= i <= j <= |s| && r == s[i..j];
    if Contains(s[i..j], p) {
      ContainsInSlice(s, i, j, p);
    }
  }

  /** A string trims to nothing exactly when it is all whitespace. */
  lemma TrimEmptyIffBlank(s: string)
    ensures Trim(s) == [] <==> AllWhitespace(s)
  {
    var r := Trim(s);
    var i, j :| 0 <= i <= j <= |s| && r == s[i..j] && AllWhitespace(s[..i]) && AllWhitespace(s[j..]);
    if r == [] {
      forall k | 0 <= k < |s|
        ensures IsJsWhitespace(s[k])
      {
        if k < i {
          assert s[k] == s[..i][k];
        } else {
          assert s[k] == s[j..][k - j];
        }
      }
    } else {
      assert r[0] == s[i];
    }
  }

  /** Trimming an already trimmed string changes nothing. */
  lemma TrimIdempotent(s: string)
    ensures Trim(Trim(s)) == Trim(s)
  {
    TrimOfTrimmed(Trim(s));
  }

  /** A string that begins and ends with non-whitespace is its own trim. */
  lemma TrimOfTrimmed(s: string)
    requires s == [] || (!IsJsWhitespace(s[0]) && !IsJsWhitespace(s[|s| - 1]))
    ensures Trim(s) == s
  {
    assert TrimStart(s) == s;
    assert TrimEnd(s) == s;
  }

  /** ASCII case folding of one code point. */
  function LowerChar(c: char): (d: char)
    ensures !('A' <= d <= 'Z')
    ensures 'A' <= c <= 'Z' ==> d as int == c as int + 32
    ensures !('A' <= c <= 'Z') ==> d == c
  {
    if 'A' <= c <= 'Z' then (c as int + 32) as char else c
  }

  /** `s.toLowerCase()` restricted to ASCII letters. */
  function ToLower(s: string): (r: string)
    ensures |r| == |s|
    ensures forall k :: 0 <= k < |s| ==> r[k] == LowerChar(s[k])
  {
    seq(|s|, k requires 0 <= k < |s| => LowerChar(s[k]))
  }

  /** Folding twice is folding once. */
  lemma ToLowerIdempotent(s: string)
    ensures ToLower(ToLower(s)) == ToLower(s)
  {
  }

  /** The UTF-16 code units of one code point: two (a surrogate pair) above
      U+FFFF, one otherwise. */
  function Utf16Units(c: char): nat {
    if c as int > 0xFFFF then 2 else 1
  }

  /** JavaScript's `s.length`: the number of UTF-16 code units. */
  function Utf16Length(s: string): (n: nat)
    ensures |s| <= n <= 2 * |s|
  {
    if s == [] then 0 else Utf16Units(s[0]) + Utf16Length(s[1..])
  }

  predicate AllBmp(s: string) {
    forall k :: 0 <= k < |s| ==> s[k] as int <= 0xFFFF
  }

  /** `length` counts code points exactly when no code point needs a
      surrogate pair, in both directions. */
  lemma {:induction false} Utf16LengthOfBmp(s: string)
    ensures Utf16Length(s) == |s| <==> AllBmp(s)
    decreases |s|
  {
    if s != [] {
      Utf16LengthOfBmp(s[1..]);
      assert forall k :: 1 <= k < |s| ==> s[k] == s[1..][k - 1];
      if AllBmp(s) {
        assert AllBmp(s[1..]);
      }
    }
  }
}

=== FILE: types.dfy ===
/** The application's data model: the condition and view-mode enumerations
    and the weather snapshot records (types.ts). Numbers are mathematical
    reals; nothing here computes with them. */
module Types {
  import opened Wrappers

  /** The six weather conditions; each member's string value is its name. */
  datatype WeatherCondition = Sunny | Cloudy | Rainy | Snowy | Stormy | PartlyCloudy {

    function Value(): string {
      match this
      case Sunny => "Sunny"
      case Cloudy => "Cloudy"
      case Rainy => "Rainy"
      case Snowy => "Snowy"
      case Stormy => "Stormy"
      case PartlyCloudy => "PartlyCloudy"
    }
  }

  /** `Object.values(WeatherCondition)`, in declaration order. */
  const AllConditions: seq<WeatherCondition> := [Sunny, Cloudy, Rainy, Snowy, Stormy, PartlyCloudy]

  /** The member whose string value is exactly `s`, if there is one. */
  function ConditionFromValue(s: string): (r: Option<WeatherCondition>)
    ensures r.Some? ==> r.value.Value() == s
    ensures r.None? ==> forall c: WeatherCondition :: c.Value() != s
  {
    if s == "Sunny" then Some(Sunny)
    else if s == "Cloudy" then Some(Cloudy)
    else if s == "Rainy" then Some(Rainy)
    else if s == "Snowy" then Some(Snowy)
    else if s == "Stormy" then Some(Stormy)
    else if s == "PartlyCloudy" then Some(PartlyCloudy)
    else None
  }

  /** Reading back a member's string value yields the member: the values
      are pairwise distinct. */
  lemma ConditionValueRoundTrip(c: WeatherCondition)
    ensures ConditionFromValue(c.Value()) == Some(c)
  {
  }

  /** The enumeration has exactly six members, each listed once. */
  lemma AllConditionsExact()
    ensures |AllConditions| == 6
    ensures forall c: WeatherCondition :: c in AllConditions
    ensures forall i, j :: 0 <= i < j < |AllConditions| ==> AllConditions[i] != AllConditions[j]
  {
    forall c: WeatherCondition
      ensures c in AllConditions
    {
      match c
      case Sunny => assert AllConditions[0] == c;
      case Cloudy => assert AllConditions[1] == c;
      case Rainy => assert AllConditions[2] == c;
      case Snowy => assert AllConditions[3] == c;
      case Stormy => assert AllConditions[4] == c;
      case PartlyCloudy => assert AllConditions[5] == c;
    }
  }

  datatype HourlyForecast = HourlyForecast(time: string, temp: real, condition: string)

  datatype WeeklyForecast = WeeklyForecast(day: string, maxTemp: real, minTemp: real, condition: string)

  datatype CurrentWeather = CurrentWeather(
    temp: real,
    condition: string,
    humidity: real,
    windSpeed: real,
    description: string)

  /** A grounding citation. */
  datatype WeatherSource = WeatherSource(title: string, uri: string)

  /** One weather snapshot; `sources` is an optional field. */
  datatype WeatherData = WeatherData(
    locationName: string,
    current: CurrentWeather,
    hourly: seq<HourlyForecast>,
    weekly: seq<WeeklyForecast>,
    sources: Option<seq<WeatherSource>>)

  /** The chart's two modes. */
  datatype ViewMode = Hourly | Weekly {

    function Value(): string {
      match this
      case Hourly => "HOURLY"
      case Weekly => "WEEKLY"
    }
  }

  /** The mode whose string value is exactly `s`, if there is one. */
  function ViewModeFromValue(s: string): (r: Option<ViewMode>)
    ensures r.Some? ==> r.value.Value() == s
    ensures r.None? ==> s != "HOURLY" && s != "WEEKLY"
  {
    if s == "HOURLY" then Some(Hourly) else if s == "WEEKLY" then Some(Weekly) else None
  }

  /** The two modes have distinct values and each reads back as itself. */
  lemma ViewModeRoundTrip(m: ViewMode)
    ensures ViewModeFromValue(m.Value()) == Some(m)
    ensures Hourly.Value() != Weekly.Value()
  {
  }
}

=== FILE: weather_icon.dfy ===
/** The icon component's normalisation of a free-form condition string to
    the enumeration, and the icon chosen for it (components/WeatherIcon.tsx). */
module WeatherIcon {
  import opened Wrappers
  import opened Strings
  import opened Types

  /** No two members' values coincide after lower-casing, so a
      case-insensitive lookup has at most one match. */
  lemma {:induction false} LowerValuesDistinct(c: WeatherCondition, d: WeatherCondition)
    requires ToLower(c.Value()) == ToLower(d.Value())
    ensures c == d
  {
    var a, b := ToLower(c.Value()), ToLower(d.Value());
    assert a[0] == LowerChar(c.Value()[0]) && b[0] == LowerChar(d.Value()[0]);
    assert |a| > 1 ==> a[1] == LowerChar(c.Value()[1]);
    assert |b| > 1 ==> b[1] == LowerChar(d.Value()[1]);
  }

  /** `cs.find(c => c.toLowerCase() === s.toLowerCase())`: the first member
      of `cs` equal to `s` up to letter case. */
  function FindIgnoringCase(cs: seq<WeatherCondition>, s: string): (r: Option<WeatherCondition>)
    ensures r.Some? ==> r.value in cs && ToLower(r.value.Value()) == ToLower(s)
    ensures r.None? ==> forall c :: c in cs ==> ToLower(c.Value()) != ToLower(s)
  {
    if |cs| == 0 then None
    else if ToLower(cs[0].Value()) == ToLower(s) then Some(cs[0])
    else FindIgnoringCase(cs[1..], s)
  }

  /** The normalised condition: the member equal to `condition` up to
      letter case, and `Sunny` when there is none. */
  function Normalize(condition: string): (c: WeatherCondition)
    ensures forall d: WeatherCondition :: ToLower(d.Value()) == ToLower(condition) ==> c == d
    ensures (forall d: WeatherCondition :: ToLower(d.Value()) != ToLower(condition)) ==> c == Sunny
  {
    var found := FindIgnoringCase(AllConditions, condition);
    if found.Some? then
      assert forall d: WeatherCondition :: ToLower(d.Value()) == ToLower(condition) ==> found.value == d by {
        forall d: WeatherCondition | ToLower(d.Value()) == ToLower(condition)
          ensures found.value == d
        {
          LowerValuesDistinct(found.value, d);
        }
      }
      found.value
    else
      AllConditionsExact();
      Sunny
  }

  /** Each member's own value normalises to that member. */
  lemma NormalizeCanonical(c: WeatherCondition)
    ensures Normalize(c.Value()) == c
  {
  }

  /** Strings equal up to letter case normalise alike. */
  lemma NormalizeIgnoresCase(a: string, b: string)
    requires ToLower(a) == ToLower(b)
    ensures Normalize(a) == Normalize(b)
  {
  }

  /** Normalising the value of a normalised condition changes nothing. */
  lemma NormalizeIdempotent(s: string)
    ensures Normalize(Normalize(s).Value()) == Normalize(s)
  {
    NormalizeCanonical(Normalize(s));
  }

  /** The lucide glyphs the component draws. */
  datatype Glyph = Sun | Cloud | CloudRain | CloudSnow | CloudLightning | CloudSun

  /** A rendered icon: the glyph and its colour class. The caller's
      `className`, appended to every colour class, and the `size` prop are
      passed through unchanged in every branch and are not modelled. */
  datatype Icon = Icon(glyph: Glyph, colour: string)

  /** The icon for the sunny case, which the switch's `default` branch repeats. */
  const SunnyIcon := Icon(Sun, "text-yellow-500")

  /** The `switch` over the normalised string value, `default` included. */
  function IconForValue(v: string): Icon {
    if v == Sunny.Value() then SunnyIcon
    else if v == Cloudy.Value() then Icon(Cloud, "text-gray-400")
    else if v == Rainy.Value() then Icon(CloudRain, "text-blue-400")
    else if v == Snowy.Value() then Icon(CloudSnow, "text-cyan-200")
    else if v == Stormy.Value() then Icon(CloudLightning, "text-purple-500")
    else if v == PartlyCloudy.Value() then Icon(CloudSun, "text-orange-300")
    else SunnyIcon
  }

  /** The icon the component renders for a free-form condition string. */
  function IconFor(condition: string): Icon {
    IconForValue(Normalize(condition).Value())
  }

  /** After normalisation the `switch` always lands on one of its six
      `case` labels, never on `default`. */
  lemma DefaultBranchUnreachable(s: string)
    ensures ConditionFromValue(Normalize(s).Value()).Some?
  {
    ConditionValueRoundTrip(Normalize(s));
  }

  /** A value that is no member's renders exactly as `Sunny` does. */
  lemma DefaultRendersAsSunny(v: string)
    requires ConditionFromValue(v).None?
    ensures IconForValue(v) == IconForValue(Sunny.Value())
  {
  }

  /** Distinct members get distinct icons, so the mapping loses nothing. */
  lemma IconsDistinct(c: WeatherCondition, d: WeatherCondition)
    requires c != d
    ensures IconForValue(c.Value()) != IconForValue(d.Value())
  {
  }

  /** A condition string that differs from a member's value only in letter
      case gets that member's icon; one that matches no member gets the sun. */
  lemma IconIgnoresCase(s: string, c: WeatherCondition)
    ensures ToLower(s) == ToLower(c.Value()) ==> IconFor(s) == IconFor(c.Value())
    ensures (forall d: WeatherCondition :: ToLower(d.Value()) != ToLower(s)) ==> IconFor(s) == SunnyIcon
  {
    if ToLower(s) == ToLower(c.Value()) {
      NormalizeIgnoresCase(s, c.Value());
    }
  }
}

=== FILE: wrappers.dfy ===
/** Failure-carrying datatypes shared by the whole model. */
module Wrappers {

  /** A value that may be absent: JavaScript's `undefined`/`null` for an
      optional field, or a lookup that found nothing. */
  datatype Option<+T> = None | Some(value: T)

  /** The settlement of an awaited call: it either returned a value or threw. */
  datatype Result<+T, +E> = Ok(value: T) | Err(error: E)
}
